=== FILE: README.md ===
# Texture processor — a Dafny model

The Unity texture processor derives a new texture from a source texture.
It can resize the source, with point or bilinear sampling. It then grades
every pixel: brightness, contrast, gamma, saturation and a red/green/blue
colour balance. Each channel is clamped to 0..255 and truncated to a byte,
and alpha is kept. Resizing is split into horizontal bands of output rows,
one band per core.

An editor-side asset keeps the list of processors whose source texture is
watched for reimport: the importer regenerates them when that texture is
reimported. Turning watching on or off for a processor adds it to or
removes it from the list, and also drops deleted (null) entries.

The model has five files:

- `wrappers.dfy`: the `Option` type.
- `texture_types.dfy`: bytes and `Color32`, and textures as row-major pixel
  sequences. It also holds the settings a processor exposes, and Unity's
  Color32/Color conversions.
- `scale.dfy`: the `Scale` class.
  - Its static fields become the fields of a `Scaler` object.
  - The output buffer is an `array`.
  - `ThreadedScale`, `PointScale` and `BilinearScale` are methods whose
    loops are proved against the function `Resampled`.
  - `Resampled` states, for every output pixel, the source pixel or
    bilinear blend it takes.
- `texture_processor.dfy`:
  - `GetResultSize`.
  - The per-pixel grading as functions, with lemmas about them.
  - The static `Generate`, whose pixel loop is proved to grade every pixel
    of the resized source. It grades with the grey weights as the code
    writes them; the intended weights are kept beside them (see Findings).
- `observed.dfy`: `TextureProcessorObserved`.
  - `CleanUp`, `Add` and `Remove` are methods on its `observed` field.
  - Each is proved against the functions `WithoutNulls`, `AfterAdd` and
    `AfterRemove`, whose properties are proved as contracts and lemmas.

Doubles and floats are modelled as exact reals. `Math.Pow` is a parameter
`pow`. `SystemInfo.processorCount` is a parameter `processorCount`.

## Model

| member | source | states |
|---|---|---|
| TextureProcessor.GetResultSize | Assets/TextureProcessor/Scripts/TextureProcessor.cs:50-58 | Without a source the size is (0, 0). Otherwise each positive Width/Height replaces the source's dimension and a non-positive one keeps it, whichever branch the code takes. |
| TextureProcessor.ResizedExactly | Assets/TextureProcessor/Scripts/TextureProcessor.cs:52-57 | The result size differs from the source size exactly when a positive Width or Height differs from the source's. |
| TextureProcessor.ResultSizePositive | Assets/TextureProcessor/Scripts/TextureProcessor.cs:50-58 | A valid source yields a result at least 1 x 1, so resizing is always to a non-empty size. |
| TextureProcessor.ContrastFactor | Assets/TextureProcessor/Scripts/TextureProcessor.cs:193-194 | The contrast factor is exactly 1 at zero contrast. |
| TextureProcessor.ContrastFactorRange | Assets/TextureProcessor/Scripts/TextureProcessor.cs:193-194 | Over the slider range the factor is non-negative. It exceeds 1 exactly when contrast is raised. |
| TextureProcessor.GradingOf | Assets/TextureProcessor/Scripts/TextureProcessor.cs:190-202 | Each precomputed stage is neutral exactly when its setting is. Brightness 0 gives offset 0, contrast 0 gives 0, gamma 1 gives correction 1. |
| TextureProcessor.Remap | Assets/TextureProcessor/Scripts/TextureProcessor.cs:204-206 | The local Remap sends oldMin to newMin and oldMax to newMax. |
| TextureProcessor.RemapBetween | Assets/TextureProcessor/Scripts/TextureProcessor.cs:204-206 | A value between the old ends is mapped between the new ends. |
| TextureProcessor.ClampToByte | Assets/TextureProcessor/Scripts/TextureProcessor.cs:240-242 | The byte cast of the clamped channel: 255 at or above 255, 0 below 0, the truncated value in between. |
| TextureProcessor.ClampToByteMonotone | Assets/TextureProcessor/Scripts/TextureProcessor.cs:240-242 | Clamping and truncating preserves order. |
| TextureProcessor.GradePixel | Assets/TextureProcessor/Scripts/TextureProcessor.cs:209-243 | One pass of the pixel loop, with the grey value's blue weight as a parameter (Generate passes 0.144, the weight line 228 writes). The graded pixel keeps its alpha. |
| TextureProcessor.NeutralIdentity | Assets/TextureProcessor/Scripts/TextureProcessor.cs:213-243 | All-neutral settings (every stage skipped) leave the pixel unchanged, whatever the grey weight. |
| TextureProcessor.BrightnessOnly | Assets/TextureProcessor/Scripts/TextureProcessor.cs:209-243 | With only brightness set, each channel becomes the clamped byte of channel + Brightness * 255, whatever the grey weight. |
| TextureProcessor.ContrastFixesMidGrey | Assets/TextureProcessor/Scripts/TextureProcessor.cs:218-222 | With only contrast set, the grey (128, 128, 128) is a fixed point, whatever the grey weight. |
| TextureProcessor.FullDesaturationIsGrey | Assets/TextureProcessor/Scripts/TextureProcessor.cs:228-243 | Saturation -1 without colour balance sets all three channels to the clamped byte of the grey value of the graded pixel, for either grey weight, and keeps alpha. |
| TextureProcessor.DesaturateGreyUnchanged | Assets/TextureProcessor/Scripts/TextureProcessor.cs:228-233 | With the intended blue weight 0.114, fully desaturating a grey pixel leaves it unchanged. |
| TextureProcessor.DesaturateGreyAsWritten | Assets/TextureProcessor/Scripts/TextureProcessor.cs:228-233 | With the blue weight 0.144 as written, Generate's grading with saturation -1 turns the grey pixel (128, 128, 128) into (131, 131, 131). |
| TextureProcessor.RedRemoved | Assets/TextureProcessor/Scripts/TextureProcessor.cs:234-238 | Red at -1 with green and blue at 0 gives red byte 1. Green and blue become the byte of the grey value as written (blue weight 0.144). |
| TextureProcessor.Luma | Assets/TextureProcessor/Scripts/TextureProcessor.cs:228 | The corrected grey value lies between the smallest and largest channel. It equals the channel when all three are equal. |
| TextureProcessor.Grey | Assets/TextureProcessor/Scripts/TextureProcessor.cs:228 | The weighted grey value of line 228 with the blue weight as a parameter. For a pixel with equal channels it is the channel times the sum of the weights. |
| TextureProcessor.LumaAsWritten | Assets/TextureProcessor/Scripts/TextureProcessor.cs:228 | The grey value as written. Its weights sum to 1.03, so equal channels v give 1.03 v. It exceeds the standard luma by 0.03 times blue. |
| TextureProcessor.LumaAsWrittenBrightensGrey | Assets/TextureProcessor/Scripts/TextureProcessor.cs:228-233 | With the weights as written, grey 128 has grey value 131.84 and desaturates to 131. |
| TextureProcessor.Resized | Assets/TextureProcessor/Scripts/TextureProcessor.cs:182-188 | The starting pixels hold result-width x result-height entries. They are resampled only when the size differs. |
| TextureProcessor.Graded | Assets/TextureProcessor/Scripts/TextureProcessor.cs:208-244 | Grading a pixel sequence with the grey weights as written keeps its length and every alpha. |
| TextureProcessor.NeutralGenerateIsCopy | Assets/TextureProcessor/Scripts/TextureProcessor.cs:180-248 | With neutral settings and no resize, Generate produces the source pixels. |
| TextureProcessor.ResizedPixels | Assets/TextureProcessor/Scripts/TextureProcessor.cs:181-188 | The result is a fresh array holding the point- or bilinear-resampled source, or a copy of the source when the size is unchanged. |
| TextureProcessor.Generate | Assets/TextureProcessor/Scripts/TextureProcessor.cs:180-248 | The array handed to SetPixels32 is fresh and holds every pixel of the resized source graded by the settings, with the grey weights as line 228 writes them. |
| Scale.PointRatio | Assets/TextureProcessor/Scripts/TextureProcessor.cs:281-282 | The point ratio source/target is positive. |
| Scale.PointRatioScales | Assets/TextureProcessor/Scripts/TextureProcessor.cs:281-282 | The point ratio times the target size gives back the source size. |
| Scale.BilinearRatio | Assets/TextureProcessor/Scripts/TextureProcessor.cs:277-278 | The bilinear ratio 1 / (target / (source - 1)) is non-negative. |
| Scale.BilinearRatioScales | Assets/TextureProcessor/Scripts/TextureProcessor.cs:277-278 | The bilinear ratio times the target size is source - 1. |
| Scale.PointIndex | Assets/TextureProcessor/Scripts/TextureProcessor.cs:349-356 | Output (x, y) of point scaling reads source index (y*h/h2)*w + x*w/w2, which is inside the source. |
| Scale.PointFloor | Assets/TextureProcessor/Scripts/TextureProcessor.cs:352-355 | The float truncations of the scaled coordinates equal integer division and stay inside the source. |
| Scale.PointIndexSameSize | Assets/TextureProcessor/Scripts/TextureProcessor.cs:349-356 | Point scaling to the source's own size reads each pixel from its own position. |
| Scale.BilinearTapsAsWritten | Assets/TextureProcessor/Scripts/TextureProcessor.cs:329-340 | Both weights lie in [0, 1). For a source at least 2 x 2, the four reads are increasing and inside the source. |
| Scale.BilinearSingleRowOverruns | Assets/TextureProcessor/Scripts/TextureProcessor.cs:330-339 | For a source 1 pixel high, the lower-row reads lie past the end of the source buffer. |
| Scale.BilinearSingleColumnOverruns | Assets/TextureProcessor/Scripts/TextureProcessor.cs:330-339 | A 1 x 2 source scaled to 2 x 2 reads index 2 of a 2-pixel buffer. |
| Scale.BilinearTaps | Assets/TextureProcessor/Scripts/TextureProcessor.cs:329-340 | The corrected reads, with the neighbour column and row clamped to the source, are all inside the source. Both weights lie in [0, 1). |
| Scale.BilinearTapsAgree | Assets/TextureProcessor/Scripts/TextureProcessor.cs:329-340 | For every source at least 2 x 2, the corrected reads equal the reads as written. |
| Scale.BilinearFloor | Assets/TextureProcessor/Scripts/TextureProcessor.cs:330-336 | floor(n * ratio) equals n(src-1)/dst and lies in the source. For src >= 2 its neighbour does too. |
| Scale.LerpWithin | Assets/TextureProcessor/Scripts/TextureProcessor.cs:364-369 | An unclamped lerp with weight in [0, 1] stays between its two ends. |
| Scale.ColorLerpUnclamped | Assets/TextureProcessor/Scripts/TextureProcessor.cs:364-369 | Weight 0 gives the first colour and weight 1 the second. For a weight in [0, 1], every channel, alpha included, lies between the two colours' channels. |
| Scale.BlendChannel | Assets/TextureProcessor/Scripts/TextureProcessor.cs:364-369 | The two-level ColorLerpUnclamped of one channel, converted back to a byte, lies between the smallest and largest of the four source bytes. |
| Scale.BlendBetween | Assets/TextureProcessor/Scripts/TextureProcessor.cs:338-340 | Every channel of a bilinear blend lies between the least and greatest of its four source pixels. |
| Scale.BilinearPixel | Assets/TextureProcessor/Scripts/TextureProcessor.cs:336-340 | Each bilinear output pixel lies channel-wise between the four source pixels it reads. |
| Scale.Resampled | Assets/TextureProcessor/Scripts/TextureProcessor.cs:271-362 | The resampled buffer holds exactly newWidth x newHeight pixels. |
| Scale.ResampledAt | Assets/TextureProcessor/Scripts/TextureProcessor.cs:329-356 | Entry y*w2 + x of the resampled buffer is the pixel computed for output (x, y). |
| Scale.PointResampleSameSize | Assets/TextureProcessor/Scripts/TextureProcessor.cs:349-356 | Point scaling to the same size is the identity. |
| Scale.PointResampleSolid | Assets/TextureProcessor/Scripts/TextureProcessor.cs:349-356 | Point scaling a single-colour texture gives that colour everywhere. |
| Scale.Cores | Assets/TextureProcessor/Scripts/TextureProcessor.cs:284 | The core count is min(processorCount, newHeight), between 1 and newHeight. |
| Scale.BandOf | Assets/TextureProcessor/Scripts/TextureProcessor.cs:284-312 | Band i is rows [slice*i, slice*(i+1)), the last ending at newHeight. Each band is non-empty and inside the output. |
| Scale.BandsAdjacent | Assets/TextureProcessor/Scripts/TextureProcessor.cs:294-300 | Each band starts where the previous one ends. |
| Scale.BandsDisjoint | Assets/TextureProcessor/Scripts/TextureProcessor.cs:294-300 | Distinct bands do not overlap, so no two workers write the same row. |
| Scale.BandContaining | Assets/TextureProcessor/Scripts/TextureProcessor.cs:284-300 | Every output row lies in exactly one band. |
| Scale.BandFrom | Assets/TextureProcessor/Scripts/TextureProcessor.cs:284-300 | Searching forward from band i for a row at or after band i's start finds the band holding that row. |
| Scale.BandsUnique | Assets/TextureProcessor/Scripts/TextureProcessor.cs:294-300 | A row in band i lies in no other band. |
| Scale.PointSampled | Assets/TextureProcessor/Scripts/TextureProcessor.cs:349-356 | With ThreadedScale's point ratios, every read of PointScale is inside the source and yields the resampled pixel. |
| Scale.BilinearSampled | Assets/TextureProcessor/Scripts/TextureProcessor.cs:327-341 | With ThreadedScale's bilinear ratios, every (corrected) read of BilinearScale is inside the source and the blend is the resampled pixel. |
| Scale.Scaler.Prepare | Assets/TextureProcessor/Scripts/TextureProcessor.cs:272-283 | Sets texColors, a fresh newColors of newWidth x newHeight, w, w2 and the ratios of the chosen method. |
| Scale.Scaler.ThreadedScale | Assets/TextureProcessor/Scripts/TextureProcessor.cs:271-325 | Returns the fresh buffer newColors holding the resampled source. The bands together cover every output entry exactly once: the ghost band counter ends at 1 on every entry. |
| Scale.Scaler.FillBand | Assets/TextureProcessor/Scripts/TextureProcessor.cs:296-318 | Runs the chosen worker on one band: that band's entries get the resampled pixels and their band count goes up by one, and every other entry is unchanged. |
| Scale.Scaler.PointScale | Assets/TextureProcessor/Scripts/TextureProcessor.cs:349-362 | Fills rows start..end of newColors with the point-sampled pixels and leaves every other entry as it was. The band count goes up by one on exactly those entries. |
| Scale.PointRows | Assets/TextureProcessor/Scripts/TextureProcessor.cs:351-357 | The row loop over start..end of a buffer w2 wide: those rows get the point-sampled pixels, every other entry is unchanged. |
| Scale.PointRow | Assets/TextureProcessor/Scripts/TextureProcessor.cs:352-356 | Fills one output row with point-sampled pixels and leaves every other entry as it was. |
| Scale.Scaler.BilinearScale | Assets/TextureProcessor/Scripts/TextureProcessor.cs:327-347 | Fills rows start..end of newColors with the bilinear blends and leaves every other entry as it was. The band count goes up by one on exactly those entries. |
| Scale.BilinearRows | Assets/TextureProcessor/Scripts/TextureProcessor.cs:329-342 | The row loop over start..end of a buffer w2 wide: those rows get the bilinear blends, every other entry is unchanged. |
| Scale.BilinearRow | Assets/TextureProcessor/Scripts/TextureProcessor.cs:330-341 | Fills one output row with bilinear blends and leaves every other entry as it was. |
| Scale.BilinearSample | Assets/TextureProcessor/Scripts/TextureProcessor.cs:336-340 | The inner-loop computation of one bilinear pixel yields the resampled pixel at (x, y). |
| Scale.Point | Assets/TextureProcessor/Scripts/TextureProcessor.cs:263-265 | Returns a fresh array holding the point-resampled texture. |
| Scale.Bilinear | Assets/TextureProcessor/Scripts/TextureProcessor.cs:267-269 | Returns a fresh array holding the bilinear-resampled texture. |
| TextureTypes.ColorRoundTrip | Assets/TextureProcessor/Scripts/TextureProcessor.cs:338-340 | Converting Color32 to Color and back gives the same colour, so the implicit conversions around ColorLerpUnclamped lose nothing by themselves. |
| TextureProcessorObserved.WithoutNulls | Assets/TextureProcessor/Scripts/TextureProcessorObserved.cs:25-30 | Dropping nulls leaves no null and never makes the list longer. |
| TextureProcessorObserved.WithoutNullsMembers | Assets/TextureProcessor/Scripts/TextureProcessorObserved.cs:25-30 | Dropping nulls adds no entry and keeps every non-null entry. |
| TextureProcessorObserved.WithoutNullsNoop | Assets/TextureProcessor/Scripts/TextureProcessorObserved.cs:25-30 | Cleaning a list without nulls changes nothing. |
| TextureProcessorObserved.WithoutNullsAppend | Assets/TextureProcessor/Scripts/TextureProcessorObserved.cs:25-37 | Cleaning a list with one entry appended is cleaning the list and then appending that entry, unless it is null. |
| TextureProcessorObserved.WithoutNullsDistinct | Assets/TextureProcessor/Scripts/TextureProcessorObserved.cs:25-30 | Cleaning keeps a duplicate-free list duplicate-free. |
| TextureProcessorObserved.IndexOf | Assets/TextureProcessor/Scripts/TextureProcessorObserved.cs:41 | The index List.Remove removes at: it holds the entry, and no earlier index does. |
| TextureProcessorObserved.RemoveFirst | Assets/TextureProcessor/Scripts/TextureProcessorObserved.cs:41 | List.Remove leaves the list unchanged when the entry is absent. When it is present, the list is one shorter: the entries before the first occurrence stay in place and the ones after it move down by one, in order. On a duplicate-free list the entry is gone and the list stays duplicate-free. |
| TextureProcessorObserved.RemoveAt | Assets/TextureProcessor/Scripts/TextureProcessorObserved.cs:41 | Removing index k keeps the entries before k, shifts the later ones down by one and keeps every other entry. On a duplicate-free list the removed entry is gone and no duplicate appears. |
| TextureProcessorObserved.AfterAdd | Assets/TextureProcessor/Scripts/TextureProcessorObserved.cs:32-37 | After Add, the list holds no null. It holds the added processor and every earlier non-null entry, and nothing else. It stays duplicate-free. A processor already present (or null) only drops the nulls; an absent one is appended at the end of the cleaned list. |
| TextureProcessorObserved.AfterRemove | Assets/TextureProcessor/Scripts/TextureProcessorObserved.cs:39-44 | After Remove, the list holds no null and only earlier entries. It keeps every other non-null entry. On a duplicate-free list the removed processor is gone and the list stays duplicate-free. On a list without nulls the result is exactly the list with the first occurrence removed. |
| TextureProcessorObserved.AddIdempotent | Assets/TextureProcessor/Scripts/TextureProcessorObserved.cs:32-37 | Adding the same processor twice is the same as adding it once. |
| TextureProcessorObserved.RemoveLast | Assets/TextureProcessor/Scripts/TextureProcessorObserved.cs:41 | Removing an entry that occurs only at the end of a list removes exactly that last entry. |
| TextureProcessorObserved.RemoveUndoesAdd | Assets/TextureProcessor/Scripts/TextureProcessorObserved.cs:32-44 | Removing a processor just added to a list without it gives back the earlier list, cleaned. |
| TextureProcessorObserved.WalkedCleans | Assets/TextureProcessor/Scripts/TextureProcessorObserved.cs:25-30 | After the backward walk has visited the indices down to i, the prefix before i is untouched and the rest has its nulls dropped, in order. |
| TextureProcessorObserved.CleanedIsClean | Assets/TextureProcessor/Scripts/TextureProcessorObserved.cs:25-30 | A cleaned list holds no null, and no duplicate when the list had none. |
| TextureProcessorObserved.Observed.CleanUp | Assets/TextureProcessor/Scripts/TextureProcessorObserved.cs:25-30 | A null list stays null. Otherwise the backward RemoveAt walk leaves exactly the non-null entries, in order. A duplicate-free list ends up clean: no null, no duplicate. |
| TextureProcessorObserved.Observed.Add | Assets/TextureProcessor/Scripts/TextureProcessorObserved.cs:32-37 | Creates the list when it is null, appends the processor unless present, then cleans up. The new list is AfterAdd of the old one, and a clean list stays clean. |
| TextureProcessorObserved.Observed.Remove | Assets/TextureProcessor/Scripts/TextureProcessorObserved.cs:39-44 | A null list stays null. Otherwise the first occurrence is removed and the list cleaned: AfterRemove of the old list. A clean list stays clean. |

## Left out

- Threads, the mutex, `finishCount` and `Thread.Sleep` in `ThreadedScale`: the bands run one after another in the model. Bands are proved disjoint and to cover every row, so each output entry is written exactly once whatever the order.
- Floating point: float and double arithmetic, and the float ratios, are modelled as exact reals. Rounding error, NaN and infinity are not modelled.
- Scale.PointIndex: the read index `(int)(thisY + ratioX * x)` is computed in float32 in the code. The model computes it over the reals. Once `thisY` reaches 2^24 a float no longer holds every integer, so there the rounded index may differ from the modelled one, and the in-range bound is not proved for the float computation.
- Unity's `Mathf.Round` on Color-to-Color32 conversion is modelled as rounding half to even.
- `Math.Pow` is the parameter `pow`. A negative base with a fractional exponent, which gives NaN in .NET, is not modelled: `pow` is any real function.
- TextureProcessor.Generate: requires Gamma != 0 and Contrast * 255 != 259. Outside those, the code divides by zero and produces infinities. Both values are outside the editor's slider ranges.
- TextureProcessor.Generate: requires a source texture. The code dereferences it without a check and throws when it is null.
- TextureProcessor.Generate: `result.SetPixels32` and `result.Apply` are left out. The method returns the pixel array that would be handed to them.
- Scale.Scaler.BilinearScale: the reads are the corrected, clamped reads (see Findings). Where the code reads past the end of the buffer and throws, the model reads the last row or column instead. For sources at least 2 x 2 the reads are the same (`BilinearTapsAgree`).
- Scale.Scaler.ThreadedScale: the per-pixel and per-row work sits in helper methods (`Prepare`, `PointRows`, `PointRow`, `BilinearRows`, `BilinearRow`, `BilinearSample`). The row loops take the static fields as parameters. The helpers do the same arithmetic as the inlined C# loops.
- `written` in `Scaler` is a ghost counter with no counterpart in the code. It goes up by one on a band's entries once the band is filled, not at each assignment of the row loops. It records that the bands cover each entry once; that each row loop assigns each of its entries is stated by the row methods' contracts.
- The instance `Generate(onSave)`, `DeleteResult`, `SetResult` and asset-database, file and import-settings handling are left out: editor I/O.
- `TextureProcessorObserved.OnValidate`, `OnEnable` and `EditorUtility.SetDirty` are left out: editor event handling. `OnEnable` only calls `CleanUp`, which is modelled.
- TextureProcessorObserved.Observed: the list is modelled as a value (`Option<seq<Processor?>>`) that each operation replaces. In the code the importer keeps its own reference to the same `List` object, so it sees every in-place change made by Add, Remove and CleanUp. The model does not capture that shared reference, nor the importer's reimport handling.
- Unity's overloaded `==` treats destroyed objects as null. The model has ordinary nulls only, and a destroyed processor is represented by null.

## Findings

| source | as written | input that shows it | evidently intended | confidence | as-written member | corrected member |
|---|---|---|---|---|---|---|
| Assets/TextureProcessor/Scripts/TextureProcessor.cs:330-339 | Bilinear scaling always reads the neighbour column xFloor + 1 and row yFloor + 1. | A source 1 pixel high, e.g. 4 x 1 scaled to 2 x 2: the lower-row reads start at index 4 of a 4-pixel buffer. Also 1 x 2 scaled to 2 x 2, which reads index 2 of a 2-pixel buffer. | The neighbour is clamped to the last column and row, so every read stays inside the source. | high; not executed | Scale.BilinearTapsAsWritten, Scale.BilinearSingleRowOverruns, Scale.BilinearSingleColumnOverruns | Scale.BilinearTaps, Scale.BilinearTapsAgree |
| Assets/TextureProcessor/Scripts/TextureProcessor.cs:228 | The grey value is 0.299 r + 0.587 g + 0.144 b. The weights sum to 1.03. | Saturation -1 and all else neutral, on pixel (128, 128, 128): the grey value is 131.84 and the pixel becomes (131, 131, 131). | The standard luma weights 0.299, 0.587, 0.114 (the greyscale article the code cites), under which a grey pixel is unchanged by desaturation. | medium; not executed | TextureProcessor.LumaAsWritten, TextureProcessor.DesaturateGreyAsWritten | TextureProcessor.Luma, TextureProcessor.DesaturateGreyUnchanged |

=== FILE: observed.dfy ===
/**
 * The processors whose source texture is watched for reimport: a
 * possibly-null list of processor references that Add and Remove keep free
 * of duplicates and of null (deleted) entries. The importer regenerates the
 * listed processors when their source texture is reimported.
 */
module TextureProcessorObserved {
  import opened Wrappers

  /** A texture processor asset; only its identity matters here. */
  class Processor {
    constructor () { }
  }

  /** The list with every null entry removed, the others kept in order. */
  function WithoutNulls(s: seq<Processor?>): (r: seq<Processor?>)
    ensures null !in r
    ensures |r| <= |s|
  {
    if |s| == 0 then []
    else if s[0] == null then WithoutNulls(s[1..])
    else [s[0]] + WithoutNulls(s[1..])
  }

  /** Dropping nulls adds no entry and loses no entry that is not null. */
  lemma {:induction false} WithoutNullsMembers(s: seq<Processor?>)
    ensures forall i :: 0 <= i < |WithoutNulls(s)| ==> WithoutNulls(s)[i] in s
    ensures forall i :: 0 <= i < |s| && s[i] != null ==> s[i] in WithoutNulls(s)
  {
    if |s| > 0 {
      var tail, r := s[1..], WithoutNulls(s);
      WithoutNullsMembers(tail);
      assert s == [s[0]] + tail;
      forall i | 0 <= i < |r| ensures r[i] in s {
        if s[0] != null && i == 0 {
          assert r[0] == s[0];
        } else {
          var j := if s[0] != null then i - 1 else i;
          assert r[i] == WithoutNulls(tail)[j];
        }
      }
      forall i | 0 <= i < |s| && s[i] != null ensures s[i] in r {
        if i == 0 {
          assert r[0] == s[0];
        } else {
          assert s[i] == tail[i - 1];
        }
      }
    }
  }

  /** A list without nulls is left as it is. */
  lemma {:induction false} WithoutNullsNoop(s: seq<Processor?>)
    requires null !in s
    ensures WithoutNulls(s) == s
  {
    if |s| > 0 {
      assert s[0] != null;
      assert null !in s[1..];
      WithoutNullsNoop(s[1..]);
    }
  }

  /** Dropping nulls commutes with appending an entry; an appended null is dropped too. */
  lemma {:induction false} WithoutNullsAppend(s: seq<Processor?>, x: Processor?)
    ensures WithoutNulls(s + [x]) == WithoutNulls(s) + (if x == null then [] else [x])
  {
    if |s| == 0 {
      assert s + [x] == [x];
      assert WithoutNulls([x]) == (if x == null then [] else [x]) + WithoutNulls([]);
    } else {
      assert (s + [x])[1..] == s[1..] + [x];
      WithoutNullsAppend(s[1..], x);
    }
  }

  /** No entry occurs twice. */
  predicate Distinct(s: seq<Processor?>)
  {
    forall i, j :: 0 <= i < j < |s| ==> s[i] != s[j]
  }

  /** Dropping nulls keeps a list free of duplicates. */
  lemma {:induction false} WithoutNullsDistinct(s: seq<Processor?>)
    requires Distinct(s)
    ensures Distinct(WithoutNulls(s))
  {
    if |s| > 0 {
      var tail := s[1..];
      assert Distinct(tail) by {
        forall i, j | 0 <= i < j < |tail| ensures tail[i] != tail[j] {
          assert tail[i] == s[i + 1] && tail[j] == s[j + 1];
        }
      }
      WithoutNullsDistinct(tail);
      WithoutNullsMembers(tail);
      if s[0] != null {
        var r := WithoutNulls(tail);
        assert s[0] !in tail by {
          forall j | 0 <= j < |tail| ensures tail[j] != s[0] {
            assert tail[j] == s[j + 1];
          }
        }
        assert s[0] !in r;
        var rs := [s[0]] + r;
        forall i, j | 0 <= i < j < |rs| ensures rs[i] != rs[j] {
          if i == 0 {
            assert rs[j] == r[j - 1];
          } else {
            assert rs[i] == r[i - 1] && rs[j] == r[j - 1];
          }
        }
      }
    }
  }

  /** List<T>.IndexOf: the first index holding x. */
  function IndexOf(s: seq<Processor?>, x: Processor?): (k: int)
    requires x in s
    ensures 0 <= k < |s| && s[k] == x
    ensures forall j :: 0 <= j < k ==> s[j] != x
  {
    if s[0] == x then 0 else 1 + IndexOf(s[1..], x)
  }

  /**
   * List<T>.Remove: the list without the first occurrence of x, unchanged
   * when x is absent. The entries before that occurrence stay where they
   * are, the ones after it move down by one, and in a list without
   * duplicates x is gone afterwards.
   */
  function RemoveFirst(s: seq<Processor?>, x: Processor?): (r: seq<Processor?>)
    ensures x !in s ==> r == s
    ensures x in s ==> |r| == |s| - 1
    ensures x in s ==> forall i :: 0 <= i < IndexOf(s, x) ==> r[i] == s[i]
    ensures x in s ==> forall i :: IndexOf(s, x) <= i < |r| ==> r[i] == s[i + 1]
    ensures forall i :: 0 <= i < |r| ==> r[i] in s
    ensures forall i :: 0 <= i < |s| && s[i] != x ==> s[i] in r
    ensures Distinct(s) ==> x !in r && Distinct(r)
  {
    if x !in s then s
    else
      var k := IndexOf(s, x);
      RemoveAt(s, k);
      s[..k] + s[k + 1..]
  }

  /** Removing index k shifts the later entries down by one and keeps every other entry. */
  lemma RemoveAt(s: seq<Processor?>, k: int)
    requires 0 <= k < |s|
    ensures var r := s[..k] + s[k + 1..];
            && |r| == |s| - 1
            && (forall i :: 0 <= i < k ==> r[i] == s[i])
            && (forall i :: k <= i < |r| ==> r[i] == s[i + 1])
            && (forall i :: 0 <= i < |r| ==> r[i] in s)
            && (forall i :: 0 <= i < |s| && i != k ==> s[i] in r)
            && (Distinct(s) ==> s[k] !in r && Distinct(r))
  {
    var r := s[..k] + s[k + 1..];
    assert forall i :: 0 <= i < k ==> r[i] == s[i];
    assert forall i :: k <= i < |r| ==> r[i] == s[i + 1];
    forall i | 0 <= i < |s| && i != k
      ensures s[i] in r
    {
      if i < k {
        assert r[i] == s[i];
      } else {
        assert r[i - 1] == s[i];
      }
    }
    if Distinct(s) {
      forall i | 0 <= i < |r|
        ensures r[i] != s[k]
      {
        if i < k {
          assert r[i] == s[i];
        } else {
          assert r[i] == s[i + 1];
        }
      }
      forall i, j | 0 <= i < j < |r|
        ensures r[i] != r[j]
      {
        var i', j' := if i < k then i else i + 1, if j < k then j else j + 1;
        assert r[i] == s[i'] && r[j] == s[j'] && i' < j';
      }
    }
  }

  /** Dropping nulls from a list whose entries all occur in t leaves only entries of t. */
  lemma AllMembers(s: seq<Processor?>, t: seq<Processor?>)
    requires forall i :: 0 <= i < |s| ==> s[i] in t
    ensures forall i :: 0 <= i < |WithoutNulls(s)| ==> WithoutNulls(s)[i] in t
  {
    var r := WithoutNulls(s);
    WithoutNullsMembers(s);
    forall i | 0 <= i < |r| ensures r[i] in t {
      var j :| 0 <= j < |s| && s[j] == r[i];
    }
  }

  /** The list after Add(tp), starting from prev (empty when the list was null). */
  function AfterAdd(prev: seq<Processor?>, tp: Processor?): (r: seq<Processor?>)
    ensures null !in r
    ensures tp != null ==> tp in r
    ensures forall i :: 0 <= i < |prev| && prev[i] != null ==> prev[i] in r
    ensures forall i :: 0 <= i < |r| ==> r[i] in prev + [tp]
    ensures Distinct(prev) ==> Distinct(r)
    ensures tp in prev || tp == null ==> r == WithoutNulls(prev)
    ensures tp !in prev && tp != null ==> r == WithoutNulls(prev) + [tp]
  {
    WithoutNullsAppend(prev, tp);
    var grown := if tp in prev then prev else prev + [tp];
    assert forall i :: 0 <= i < |prev| ==> grown[i] == prev[i];
    assert tp in prev ==> grown[IndexOf(prev, tp)] == tp;
    assert tp !in prev ==> grown[|prev|] == tp;
    AllMembers(grown, prev + [tp]);
    WithoutNullsMembers(grown);
    assert Distinct(prev) ==> Distinct(grown) by {
      if Distinct(prev) && tp !in prev {
        forall i, j | 0 <= i < j < |grown| ensures grown[i] != grown[j] {
          if j == |prev| {
            assert grown[i] == prev[i];
          } else {
            assert grown[i] == prev[i] && grown[j] == prev[j];
          }
        }
      }
    }
    if Distinct(grown) then WithoutNullsDistinct(grown); WithoutNulls(grown)
    else WithoutNulls(grown)
  }

  /** The list after Remove(tp), starting from a non-null list prev. */
  function AfterRemove(prev: seq<Processor?>, tp: Processor?): (r: seq<Processor?>)
    ensures null !in r
    ensures forall i :: 0 <= i < |r| ==> r[i] in prev
    ensures forall i :: 0 <= i < |prev| && prev[i] != null && prev[i] != tp ==> prev[i] in r
    ensures Distinct(prev) ==> tp !in r && Distinct(r)
    ensures null !in prev ==> r == RemoveFirst(prev, tp)
  {
    var shrunk := RemoveFirst(prev, tp);
    AllMembers(shrunk, prev);
    WithoutNullsMembers(shrunk);
    if Distinct(shrunk) then
      WithoutNullsDistinct(shrunk);
      if null !in shrunk then WithoutNullsNoop(shrunk); WithoutNulls(shrunk) else WithoutNulls(shrunk)
    else
      if null !in shrunk then WithoutNullsNoop(shrunk); WithoutNulls(shrunk) else WithoutNulls(shrunk)
  }

  /** Adding a processor that is already observed changes nothing more. */
  lemma AddIdempotent(prev: seq<Processor?>, tp: Processor)
    ensures AfterAdd(AfterAdd(prev, tp), tp) == AfterAdd(prev, tp)
  {
    var once := AfterAdd(prev, tp);
    assert tp in once;
    WithoutNullsNoop(once);
  }

  /** Removing a processor just added to a list that did not hold it gives the list back, nulls dropped. */
  lemma RemoveUndoesAdd(prev: seq<Processor?>, tp: Processor)
    requires tp !in prev
    ensures AfterRemove(AfterAdd(prev, tp), tp) == WithoutNulls(prev)
  {
    var base := WithoutNulls(prev);
    WithoutNullsMembers(prev);
    assert tp !in base;
    WithoutNullsAppend(prev, tp);
    assert AfterAdd(prev, tp) == base + [tp];
    RemoveLast(base, tp);
    WithoutNullsNoop(base);
  }

  /** Removing an entry that occurs only at the end removes that last entry. */
  lemma RemoveLast(s: seq<Processor?>, x: Processor?)
    requires x !in s
    ensures RemoveFirst(s + [x], x) == s
  {
    var sx := s + [x];
    var k := IndexOf(sx, x);
    assert k == |s|;
    assert sx[..k] == s;
  }

  /** One step of CleanUp's backward walk: removing index i if it is null extends the cleaned suffix by one. */
  lemma CleanUpStep(orig: seq<Processor?>, i: int)
    requires 0 <= i < |orig|
    ensures var list := orig[..i + 1] + WithoutNulls(orig[i + 1..]);
            list[i] == orig[i] &&
            (if list[i] == null then list[..i] + list[i + 1..] else list) == orig[..i] + WithoutNulls(orig[i..])
  {
    var p, c, t := orig[..i], orig[i], WithoutNulls(orig[i + 1..]);
    var rest := orig[i..];
    assert rest[0] == c && rest[1..] == orig[i + 1..];
    assert WithoutNulls(rest) == (if c == null then [] else [c]) + t;
    assert orig[..i + 1] == p + [c];
    var list := p + [c] + t;
    assert list[i] == c;
    if c == null {
      assert list[..i] == p;
      assert list[i + 1..] == t;
    } else {
      assert list == p + ([c] + t);
    }
  }

  /** The list after CleanUp's backward walk has visited the indices from |orig| - 1 down to i. */
  function Walked(orig: seq<Processor?>, i: int): (r: seq<Processor?>)
    requires 0 <= i <= |orig|
    ensures i <= |r|
    decreases |orig| - i
  {
    if i == |orig| then orig
    else
      var list := Walked(orig, i + 1);
      if list[i] == null then list[..i] + list[i + 1..] else list
  }

  /** The walk leaves the indices below i untouched and the rest cleaned. */
  lemma {:induction false} WalkedCleans(orig: seq<Processor?>, i: int)
    requires 0 <= i <= |orig|
    ensures Walked(orig, i) == orig[..i] + WithoutNulls(orig[i..])
    decreases |orig| - i
  {
    if i == |orig| {
      assert orig[..i] == orig && orig[i..] == [];
    } else {
      WalkedCleans(orig, i + 1);
      CleanUpStep(orig, i);
    }
  }

  /** A cleaned list holds no null, and no duplicate when the list had none. */
  lemma CleanedIsClean(s: seq<Processor?>)
    ensures null !in WithoutNulls(s)
    ensures Distinct(s) ==> Distinct(WithoutNulls(s))
  {
    if Distinct(s) {
      WithoutNullsDistinct(s);
    }
  }

  /** The asset holding the watched processors; observed is null until the first Add. */
  class Observed {
    var observed: Option<seq<Processor?>>

    /** The watched list's invariant: a list that exists holds no null and no processor twice. */
    predicate Clean()
      reads this
    {
      observed.Some? ==> null !in observed.value && Distinct(observed.value)
    }

    constructor ()
      ensures observed == None
      ensures Clean()
    {
      observed := None;
    }

    /** CleanUp: drops every null entry, walking the list backwards with RemoveAt. */
    method CleanUp()
      modifies this
      ensures old(observed).None? ==> observed == None
      ensures old(observed).Some? ==> observed == Some(WithoutNulls(old(observed).value))
      ensures old(observed.None? || Distinct(observed.value)) ==> Clean()
    {
      if observed.None? {
        return;
      }
      ghost var orig := observed.value;
      var i := |observed.value| - 1;
      while i >= 0
        invariant -1 <= i < |orig|
        invariant observed.Some? && observed.value == Walked(orig, i + 1)
      {
        var list := observed.value;
        if list[i] == null {
          observed := Some(list[..i] + list[i + 1..]);
        }
        i := i - 1;
      }
      assert observed.value == Walked(orig, 0);
      WalkedCleans(orig, 0);
      assert orig[..0] == [] && orig[0..] == orig;
      assert observed.value == WithoutNulls(orig);
      CleanedIsClean(orig);
    }

    /** Add: creates the list if needed, appends tp unless present, then cleans up. */
    method Add(tp: Processor?)
      modifies this
      ensures observed.Some?
      ensures observed.value == AfterAdd(if old(observed).None? then [] else old(observed).value, tp)
      ensures old(Clean()) ==> Clean()
    {
      if observed.None? {
        observed := Some([]);
      }
      if tp !in observed.value {
        observed := Some(observed.value + [tp]);
      }
      CleanUp();
    }

    /** Remove: nothing when the list is null; otherwise drops the first tp, then cleans up. */
    method Remove(tp: Processor?)
      modifies this
      ensures old(observed).None? ==> observed == None
      ensures old(observed).Some? ==> observed == Some(AfterRemove(old(observed).value, tp))
      ensures old(Clean()) ==> Clean()
    {
      if observed.None? {
        return;
      }
      observed := Some(RemoveFirst(observed.value, tp));
      CleanUp();
    }
  }
}

=== FILE: scale.dfy ===
/**
 * The texture resampler (the nested Scale class of TextureProcessor):
 * nearest-neighbour and bilinear scaling of a row-major pixel buffer,
 * split into horizontal row bands.
 *
 * The source runs the first bands on worker threads and the last one on
 * the calling thread; here the bands run one after another. What makes
 * that sound is proved below: the bands are disjoint, cover every output
 * row, and every slot of the output buffer is written exactly once.
 */
module Scale {
  import opened TextureTypes

  // ---------------------------------------------------------------------
  // Integer facts behind the index arithmetic

  lemma MulLeMul(a: int, b: int, c: int)
    requires a <= b && c >= 0
    ensures a * c <= b * c
  {
    assert b * c - a * c == (b - a) * c;
  }

  /** Row-major slot (x, y) of a w-by-h buffer lies inside it. */
  lemma RowMajorInRange(w: int, h: int, x: int, y: int)
    requires 0 <= x < w && 0 <= y < h
    ensures 0 <= y * w + x < w * h
  {
    MulLeMul(y, h - 1, w);
    assert (h - 1) * w + w == w * h;
  }

  /** Euclidean division is unique: a quotient and remainder that fit are a / w and a % w. */
  lemma DivUnique(a: int, w: int, q: int, r: int)
    requires w >= 1 && 0 <= r < w && a == q * w + r
    ensures a / w == q && a % w == r
  {
    var q', r' := a / w, a % w;
    assert a == q' * w + r';
    if q' < q {
      MulLeMul(q' + 1, q, w);
      assert false;
    }
    if q < q' {
      MulLeMul(q + 1, q', w);
      assert false;
    }
  }

  /** Row and column of a row-major slot. */
  lemma RowMajorSplit(w: int, x: int, y: int)
    requires 0 <= x < w && 0 <= y
    ensures (y * w + x) / w == y && (y * w + x) % w == x
  {
    DivUnique(y * w + x, w, y, x);
  }

  /** A slot below w * h lies in one of the h rows. */
  lemma RowBelow(k: int, w: int, h: int)
    requires 0 <= k < w * h && w >= 1
    ensures k / w < h
  {
    var q := k / w;
    assert k == q * w + k % w;
    if q >= h {
      MulLeMul(h, q, w);
      assert false;
    }
  }

  /** For n < d, the quotient n * a / d stays below a. */
  lemma QuotientBelow(n: int, a: int, d: int)
    requires 0 <= n < d && a >= 1
    ensures 0 <= n * a / d < a
  {
    MulLeMul(n, d - 1, a);
    MulLeMul(0, n, a);
    var q := n * a / d;
    assert n * a == q * d + n * a % d;
    if q >= a {
      MulLeMul(a, q, d);
      assert false;
    }
  }

  /** floor(n * ratio), for a ratio with ratio * d == a, is the integer quotient n * a / d. */
  lemma FloorOfScaled(n: int, a: int, d: int, ratio: real)
    requires n >= 0 && a >= 0 && d >= 1 && ratio * d as real == a as real
    ensures (n as real * ratio).Floor == n * a / d
    ensures (ratio * n as real).Floor == n * a / d
  {
    var q, m := n * a / d, n * a % d;
    assert n * a == q * d + m;
    assert ratio == a as real / d as real;
    calc {
      n as real * ratio;
      (n * a) as real / d as real;
      (q * d + m) as real / d as real;
      q as real + m as real / d as real;
    }
    assert 0.0 <= m as real / d as real < 1.0;
  }

  /** Adding an integer commutes with taking the floor. */
  lemma FloorShift(n: int, t: real)
    ensures (n as real + t).Floor == n + t.Floor
  {
  }

  // ---------------------------------------------------------------------
  // Ratios

  /** ratioX / ratioY for point scaling: source size over destination size. */
  function PointRatio(src: int, dst: int): (r: real)
    requires src >= 1 && dst >= 1
    ensures r > 0.0
  {
    src as real / dst as real
  }

  /** The point ratio scales the destination size back to the source size. */
  lemma PointRatioScales(src: int, dst: int)
    requires src >= 1 && dst >= 1
    ensures PointRatio(src, dst) * dst as real == src as real
  {
  }

  /**
   * ratioX / ratioY for bilinear scaling, 1 / (dst / (src - 1)). For a
   * source dimension of 1 the float quotient dst / 0 is +infinity and the
   * ratio is 0.
   */
  function BilinearRatio(src: int, dst: int): (r: real)
    requires src >= 1 && dst >= 1
    ensures r >= 0.0
  {
    if src == 1 then 0.0 else 1.0 / (dst as real / (src - 1) as real)
  }

  /** The bilinear ratio scales the destination size to the last source coordinate. */
  lemma BilinearRatioScales(src: int, dst: int)
    requires src >= 1 && dst >= 1
    ensures BilinearRatio(src, dst) * dst as real == (src - 1) as real
  {
  }

  /** floor(n * ratio): the source coordinate read for output coordinate n. */
  function ScaledFloor(n: int, ratio: real): int
  {
    (n as real * ratio).Floor
  }

  // ---------------------------------------------------------------------
  // Nearest-neighbour sampling

  /**
   * The source index PointScale reads for output pixel (x, y) when scaling
   * w x h to w2 x h2: (int)(thisY + ratioX * x) with
   * thisY = (int)(ratioY * y) * w. Both casts truncate non-negative values.
   */
  function PointIndex(w: int, h: int, w2: int, h2: int, x: int, y: int): (i: int)
    requires w >= 1 && h >= 1 && w2 >= 1 && h2 >= 1
    requires 0 <= x < w2 && 0 <= y < h2
    ensures i == (y * h / h2) * w + x * w / w2
    ensures 0 <= i < w * h
  {
    var ratioX, ratioY := PointRatio(w, w2), PointRatio(h, h2);
    var thisY := RowStart(ratioY, w, y);
    PointFloor(y, h, h2);
    PointFloor(x, w, w2);
    FloorShift(thisY, x as real * ratioX);
    RowMajorInRange(w, h, x * w / w2, y * h / h2);
    PointRead(ratioX, thisY, x)
  }

  /** thisY = (int)(ratioY * y) * w: where source row (int)(ratioY * y) starts. */
  function RowStart(ratioY: real, w: int, y: int): int
  {
    ScaledFloor(y, ratioY) * w
  }

  /** (int)(thisY + ratioX * x): the source index read for output column x. */
  function PointRead(ratioX: real, thisY: int, x: int): int
  {
    (thisY as real + x as real * ratioX).Floor
  }

  /** floor(n * PointRatio(src, dst)) for an output coordinate n is the source coordinate n * src / dst. */
  lemma PointFloor(n: int, src: int, dst: int)
    requires src >= 1 && dst >= 1 && 0 <= n < dst
    ensures ScaledFloor(n, PointRatio(src, dst)) == n * src / dst
    ensures 0 <= n * src / dst < src
  {
    PointRatioScales(src, dst);
    FloorOfScaled(n, src, dst, PointRatio(src, dst));
    QuotientBelow(n, src, dst);
  }

  /** Scaling to the same size reads every pixel from its own position. */
  lemma PointIndexSameSize(w: int, h: int, x: int, y: int)
    requires w >= 1 && h >= 1 && 0 <= x < w && 0 <= y < h
    ensures PointIndex(w, h, w, h, x, y) == y * w + x
  {
    DivUnique(y * h, h, y, 0);
    DivUnique(x * w, w, x, 0);
  }

  // ---------------------------------------------------------------------
  // Bilinear sampling

  /** The four source indices one output pixel reads, and its two interpolation weights. */
  datatype Taps = Taps(topLeft: int, topRight: int, bottomLeft: int, bottomRight: int,
                       xLerp: real, yLerp: real)

  /**
   * The reads of BilinearScale as written: yFloor = floor(y * ratioY),
   * rows y1 = yFloor * w and y2 = (yFloor + 1) * w, xFloor = floor(x * ratioX),
   * and the neighbours xFloor + 1 and yFloor + 1 taken unconditionally.
   */
  function BilinearTapsAsWritten(w: int, h: int, w2: int, h2: int, x: int, y: int): (t: Taps)
    requires w >= 1 && h >= 1 && w2 >= 1 && h2 >= 1
    requires 0 <= x < w2 && 0 <= y < h2
    ensures 0.0 <= t.xLerp < 1.0 && 0.0 <= t.yLerp < 1.0
    ensures w >= 2 && h >= 2 ==>
      0 <= t.topLeft && t.topLeft < t.topRight && t.topRight < t.bottomLeft &&
      t.bottomLeft < t.bottomRight && t.bottomRight < w * h
  {
    var ratioX, ratioY := BilinearRatio(w, w2), BilinearRatio(h, h2);
    var xFloor, yFloor := ScaledFloor(x, ratioX), ScaledFloor(y, ratioY);
    BilinearFloor(x, w, w2);
    BilinearFloor(y, h, h2);
    if w >= 2 && h >= 2 then
      NeighboursOrdered(w, h, xFloor, yFloor);
      UnclampedTaps(w, ratioX, ratioY, x, y)
    else
      UnclampedTaps(w, ratioX, ratioY, x, y)
  }

  /** A pixel with a right and a lower neighbour: its four reads are increasing and inside. */
  lemma NeighboursOrdered(w: int, h: int, x: int, y: int)
    requires 0 <= x && x + 1 < w && 0 <= y && y + 1 < h
    ensures 0 <= y * w + x && (y + 1) * w + x + 1 < w * h
    ensures y * w + x + 1 < (y + 1) * w + x
  {
    RowMajorInRange(w, h, x + 1, y + 1);
    assert (y + 1) * w == y * w + w;
  }

  /** The reads of BilinearScale as written, from the ratios it holds. */
  function UnclampedTaps(w: int, ratioX: real, ratioY: real, x: int, y: int): Taps
  {
    var xFloor, yFloor := ScaledFloor(x, ratioX), ScaledFloor(y, ratioY);
    var y1, y2 := yFloor * w, (yFloor + 1) * w;
    Taps(y1 + xFloor, y1 + xFloor + 1, y2 + xFloor, y2 + xFloor + 1,
         x as real * ratioX - xFloor as real, y as real * ratioY - yFloor as real)
  }

  /**
   * With a source one pixel high, every output pixel's lower-row reads fall
   * past the end of the source buffer.
   */
  lemma BilinearSingleRowOverruns(w: int, w2: int, h2: int, x: int, y: int)
    requires w >= 1 && w2 >= 1 && h2 >= 1 && 0 <= x < w2 && 0 <= y < h2
    ensures BilinearTapsAsWritten(w, 1, w2, h2, x, y).bottomLeft >= w * 1
  {
    BilinearFloor(x, w, w2);
    BilinearFloor(y, 1, h2);
  }

  /**
   * With a source one pixel wide and two high, scaled to 2 x 2, the last
   * output row reads index 2 of a two-pixel buffer.
   */
  lemma BilinearSingleColumnOverruns()
    ensures BilinearTapsAsWritten(1, 2, 2, 2, 0, 1).bottomRight == 2 == 1 * 2
  {
    BilinearFloor(0, 1, 2);
    BilinearFloor(1, 2, 2);
  }

  /**
   * The reads BilinearScale makes for output pixel (x, y) from the ratios
   * it holds, with the neighbour column and row clamped to the last ones
   * of a w x h source.
   */
  function ClampedTaps(w: int, h: int, ratioX: real, ratioY: real, x: int, y: int): Taps
  {
    var xFloor, yFloor := ScaledFloor(x, ratioX), ScaledFloor(y, ratioY);
    var xNext := if xFloor + 1 < w then xFloor + 1 else xFloor;
    var yNext := if yFloor + 1 < h then yFloor + 1 else yFloor;
    Taps(yFloor * w + xFloor, yFloor * w + xNext, yNext * w + xFloor, yNext * w + xNext,
         x as real * ratioX - xFloor as real, y as real * ratioY - yFloor as real)
  }

  /**
   * The corrected reads of bilinear scaling a w x h source to w2 x h2.
   * Every read is inside the source, whatever its size, and both weights
   * lie in [0, 1).
   */
  function BilinearTaps(w: int, h: int, w2: int, h2: int, x: int, y: int): (t: Taps)
    requires w >= 1 && h >= 1 && w2 >= 1 && h2 >= 1
    requires 0 <= x < w2 && 0 <= y < h2
    ensures 0.0 <= t.xLerp < 1.0 && 0.0 <= t.yLerp < 1.0
    ensures 0 <= t.topLeft < w * h && 0 <= t.topRight < w * h
    ensures 0 <= t.bottomLeft < w * h && 0 <= t.bottomRight < w * h
  {
    var ratioX, ratioY := BilinearRatio(w, w2), BilinearRatio(h, h2);
    var xFloor, yFloor := ScaledFloor(x, ratioX), ScaledFloor(y, ratioY);
    BilinearFloor(x, w, w2);
    BilinearFloor(y, h, h2);
    CornersInRange(w, h, xFloor, if xFloor + 1 < w then xFloor + 1 else xFloor,
                   yFloor, if yFloor + 1 < h then yFloor + 1 else yFloor);
    ClampedTaps(w, h, ratioX, ratioY, x, y)
  }

  /** For sources at least 2 x 2 the clamped reads are the reads as written. */
  lemma BilinearTapsAgree(w: int, h: int, w2: int, h2: int, x: int, y: int)
    requires w >= 2 && h >= 2 && w2 >= 1 && h2 >= 1
    requires 0 <= x < w2 && 0 <= y < h2
    ensures BilinearTaps(w, h, w2, h2, x, y) == BilinearTapsAsWritten(w, h, w2, h2, x, y)
  {
    BilinearFloor(x, w, w2);
    BilinearFloor(y, h, h2);
  }

  /** The four row-major corners of a cell whose columns and rows lie in a w x h buffer lie in it. */
  lemma CornersInRange(w: int, h: int, x0: int, x1: int, y0: int, y1: int)
    requires 0 <= x0 < w && 0 <= x1 < w && 0 <= y0 < h && 0 <= y1 < h
    ensures 0 <= y0 * w + x0 < w * h && 0 <= y0 * w + x1 < w * h
    ensures 0 <= y1 * w + x0 < w * h && 0 <= y1 * w + x1 < w * h
  {
    RowMajorInRange(w, h, x0, y0);
    RowMajorInRange(w, h, x1, y0);
    RowMajorInRange(w, h, x0, y1);
    RowMajorInRange(w, h, x1, y1);
  }

  /**
   * floor(n * BilinearRatio(src, dst)) for an output coordinate n: a source
   * coordinate, with room for its neighbour whenever src >= 2.
   */
  lemma BilinearFloor(n: int, src: int, dst: int)
    requires src >= 1 && dst >= 1 && 0 <= n < dst
    ensures ScaledFloor(n, BilinearRatio(src, dst)) == n * (src - 1) / dst
    ensures 0 <= ScaledFloor(n, BilinearRatio(src, dst)) < src
    ensures src >= 2 ==> ScaledFloor(n, BilinearRatio(src, dst)) + 1 < src
  {
    BilinearRatioScales(src, dst);
    FloorOfScaled(n, src - 1, dst, BilinearRatio(src, dst));
    if src >= 2 {
      QuotientBelow(n, src - 1, dst);
    } else {
      assert n * (src - 1) == 0;
    }
  }

  /** ColorLerpUnclamped on one channel. */
  function Lerp(a: real, b: real, t: real): real
  {
    a + (b - a) * t
  }

  /** Multiplying by a non-negative c keeps an order. */
  lemma ScaleOrder(c: real, x: real, y: real)
    requires x <= y && c >= 0.0
    ensures c * x <= c * y
  {
    assert c * y - c * x == c * (y - x);
  }

  /** For a weight in [0, 1], Lerp stays between the two end values. */
  lemma LerpWithin(a: real, b: real, t: real, lo: real, hi: real)
    requires 0.0 <= t <= 1.0 && lo <= a <= hi && lo <= b <= hi
    ensures lo <= Lerp(a, b, t) <= hi
  {
    LerpBetween(a, b, t);
  }

  /** From a towards a larger b, a weight in [0, 1] stays in [a, b]. */
  lemma LerpRising(a: real, b: real, t: real)
    requires 0.0 <= t <= 1.0 && a <= b
    ensures a <= Lerp(a, b, t) <= b
  {
    ScaleOrder(b - a, 0.0, t);
    ScaleOrder(b - a, t, 1.0);
  }

  /** From a towards a smaller b, a weight in [0, 1] stays in [b, a]. */
  lemma LerpFalling(a: real, b: real, t: real)
    requires 0.0 <= t <= 1.0 && b <= a
    ensures b <= Lerp(a, b, t) <= a
  {
    LerpSwap(a, b, t);
    LerpRising(b, a, 1.0 - t);
  }

  /** Interpolating from b back to a with the complementary weight gives the same point. */
  lemma LerpSwap(a: real, b: real, t: real)
    ensures Lerp(a, b, t) == Lerp(b, a, 1.0 - t)
  {
  }

  /** Scale.ColorLerpUnclamped: channel-wise interpolation without clamping the weight. */
  function ColorLerpUnclamped(c1: Color, c2: Color, value: real): (c: Color)
    ensures value == 0.0 ==> c == c1
    ensures value == 1.0 ==> c == c2
    ensures 0.0 <= value <= 1.0 ==>
      Spans(c1.r, c2.r, c.r) && Spans(c1.g, c2.g, c.g) && Spans(c1.b, c2.b, c.b) && Spans(c1.a, c2.a, c.a)
  {
    if 0.0 <= value <= 1.0 then
      LerpBetween(c1.r, c2.r, value);
      LerpBetween(c1.g, c2.g, value);
      LerpBetween(c1.b, c2.b, value);
      LerpBetween(c1.a, c2.a, value);
      Color(Lerp(c1.r, c2.r, value), Lerp(c1.g, c2.g, value),
            Lerp(c1.b, c2.b, value), Lerp(c1.a, c2.a, value))
    else
      Color(Lerp(c1.r, c2.r, value), Lerp(c1.g, c2.g, value),
            Lerp(c1.b, c2.b, value), Lerp(c1.a, c2.a, value))
  }

  /** x lies between a and b, whichever of the two is larger. */
  predicate Spans(a: real, b: real, x: real)
  {
    (a <= x <= b) || (b <= x <= a)
  }

  /** A lerp with a weight in [0, 1] lies between its two ends. */
  lemma LerpBetween(a: real, b: real, t: real)
    requires 0.0 <= t <= 1.0
    ensures Spans(a, b, Lerp(a, b, t))
  {
    if a <= b {
      LerpRising(a, b, t);
    } else {
      LerpFalling(a, b, t);
    }
  }

  function Min4(a: byte, b: byte, c: byte, d: byte): byte
  {
    var ab := if a <= b then a else b;
    var cd := if c <= d then c else d;
    if ab <= cd then ab else cd
  }

  function Max4(a: byte, b: byte, c: byte, d: byte): byte
  {
    var ab := if a >= b then a else b;
    var cd := if c >= d then c else d;
    if ab >= cd then ab else cd
  }

  /** One channel of the bilinear blend of four 8-bit values: the result, back in 8 bits. */
  function BlendChannel(tl: byte, tr: byte, bl: byte, br: byte, xLerp: real, yLerp: real): (v: byte)
    requires 0.0 <= xLerp <= 1.0 && 0.0 <= yLerp <= 1.0
    ensures Min4(tl, tr, bl, br) <= v <= Max4(tl, tr, bl, br)
  {
    var lo, hi := Min4(tl, tr, bl, br) as real / 255.0, Max4(tl, tr, bl, br) as real / 255.0;
    var top := Lerp(tl as real / 255.0, tr as real / 255.0, xLerp);
    var bottom := Lerp(bl as real / 255.0, br as real / 255.0, xLerp);
    LerpWithin(tl as real / 255.0, tr as real / 255.0, xLerp, lo, hi);
    LerpWithin(bl as real / 255.0, br as real / 255.0, xLerp, lo, hi);
    LerpWithin(top, bottom, yLerp, lo, hi);
    ToChannelWithin(Lerp(top, bottom, yLerp), Min4(tl, tr, bl, br), Max4(tl, tr, bl, br));
    ToChannel(Lerp(top, bottom, yLerp))
  }

  // ---------------------------------------------------------------------
  // What the resampler produces

  /** Output pixel (x, y) of point scaling tex to w2 x h2. */
  function PointPixel(tex: Texture, w2: int, h2: int, x: int, y: int): Color32
    requires tex.Valid() && w2 >= 1 && h2 >= 1 && 0 <= x < w2 && 0 <= y < h2
  {
    tex.pixels[PointIndex(tex.width, tex.height, w2, h2, x, y)]
  }

  /** Output pixel (x, y) of bilinear scaling tex to w2 x h2, before the Color-to-Color32 conversion. */
  function BilinearColor(tex: Texture, w2: int, h2: int, x: int, y: int): Color
    requires tex.Valid() && w2 >= 1 && h2 >= 1 && 0 <= x < w2 && 0 <= y < h2
  {
    Blend(tex.pixels, BilinearTaps(tex.width, tex.height, w2, h2, x, y))
  }

  /** Taps t all index into p. */
  predicate TapsIn(t: Taps, p: seq<Color32>)
  {
    && 0 <= t.topLeft < |p| && 0 <= t.topRight < |p|
    && 0 <= t.bottomLeft < |p| && 0 <= t.bottomRight < |p|
  }

  /** Lerp along x in the upper and the lower row, then along y between the two. */
  function Blend(p: seq<Color32>, t: Taps): Color
    requires TapsIn(t, p)
  {
    ColorLerpUnclamped(
      ColorLerpUnclamped(ToColor(p[t.topLeft]), ToColor(p[t.topRight]), t.xLerp),
      ColorLerpUnclamped(ToColor(p[t.bottomLeft]), ToColor(p[t.bottomRight]), t.xLerp),
      t.yLerp)
  }

  /**
   * Output pixel (x, y) of bilinear scaling: every channel, alpha included,
   * lies between the least and the greatest of the four source pixels read.
   */
  function BilinearPixel(tex: Texture, w2: int, h2: int, x: int, y: int): (c: Color32)
    requires tex.Valid() && w2 >= 1 && h2 >= 1 && 0 <= x < w2 && 0 <= y < h2
    ensures Between(tex.pixels, BilinearTaps(tex.width, tex.height, w2, h2, x, y), c)
  {
    BlendBetween(tex.pixels, BilinearTaps(tex.width, tex.height, w2, h2, x, y));
    ToColor32(BilinearColor(tex, w2, h2, x, y))
  }

  /** With both weights in [0, 1], the 8-bit blend stays between the four pixels it reads. */
  lemma BlendBetween(p: seq<Color32>, t: Taps)
    requires TapsIn(t, p) && 0.0 <= t.xLerp <= 1.0 && 0.0 <= t.yLerp <= 1.0
    ensures Between(p, t, ToColor32(Blend(p, t)))
  {
    var tl, tr, bl, br := p[t.topLeft], p[t.topRight], p[t.bottomLeft], p[t.bottomRight];
    var k := Blend(p, t);
    BlendChannelOf(tl.r, tr.r, bl.r, br.r, t.xLerp, t.yLerp, k.r);
    BlendChannelOf(tl.g, tr.g, bl.g, br.g, t.xLerp, t.yLerp, k.g);
    BlendChannelOf(tl.b, tr.b, bl.b, br.b, t.xLerp, t.yLerp, k.b);
    BlendChannelOf(tl.a, tr.a, bl.a, br.a, t.xLerp, t.yLerp, k.a);
  }

  /** A channel of the blended colour converts back to the 8-bit blend of that channel. */
  lemma BlendChannelOf(tl: byte, tr: byte, bl: byte, br: byte, xLerp: real, yLerp: real, v: real)
    requires 0.0 <= xLerp <= 1.0 && 0.0 <= yLerp <= 1.0
    requires v == Lerp(Lerp(tl as real / 255.0, tr as real / 255.0, xLerp),
                       Lerp(bl as real / 255.0, br as real / 255.0, xLerp), yLerp)
    ensures ToChannel(v) == BlendChannel(tl, tr, bl, br, xLerp, yLerp)
  {
  }

  /** Each channel of c, alpha included, lies between the least and the greatest of the four pixels t reads. */
  predicate Between(p: seq<Color32>, t: Taps, c: Color32)
    requires TapsIn(t, p)
  {
    && Min4(p[t.topLeft].r, p[t.topRight].r, p[t.bottomLeft].r, p[t.bottomRight].r) <= c.r
    && c.r <= Max4(p[t.topLeft].r, p[t.topRight].r, p[t.bottomLeft].r, p[t.bottomRight].r)
    && Min4(p[t.topLeft].g, p[t.topRight].g, p[t.bottomLeft].g, p[t.bottomRight].g) <= c.g
    && c.g <= Max4(p[t.topLeft].g, p[t.topRight].g, p[t.bottomLeft].g, p[t.bottomRight].g)
    && Min4(p[t.topLeft].b, p[t.topRight].b, p[t.bottomLeft].b, p[t.bottomRight].b) <= c.b
    && c.b <= Max4(p[t.topLeft].b, p[t.topRight].b, p[t.bottomLeft].b, p[t.bottomRight].b)
    && Min4(p[t.topLeft].a, p[t.topRight].a, p[t.bottomLeft].a, p[t.bottomRight].a) <= c.a
    && c.a <= Max4(p[t.topLeft].a, p[t.topRight].a, p[t.bottomLeft].a, p[t.bottomRight].a)
  }

  /** Slot k of the scaled buffer, read row by row. */
  function ScaledPixel(tex: Texture, w2: int, h2: int, useBilinear: bool, k: int): Color32
    requires tex.Valid() && w2 >= 1 && h2 >= 1 && 0 <= k < w2 * h2
  {
    RowBelow(k, w2, h2);
    if useBilinear then BilinearPixel(tex, w2, h2, k % w2, k / w2)
    else PointPixel(tex, w2, h2, k % w2, k / w2)
  }

  /** The buffer ThreadedScale returns for scaling tex to w2 x h2. */
  function Resampled(tex: Texture, w2: int, h2: int, useBilinear: bool): (r: seq<Color32>)
    requires tex.Valid() && w2 >= 1 && h2 >= 1
    ensures |r| == w2 * h2
  {
    seq(w2 * h2, k requires 0 <= k < w2 * h2 => ScaledPixel(tex, w2, h2, useBilinear, k))
  }

  /** Slot y * w2 + x of the scaled buffer holds output pixel (x, y). */
  lemma ResampledAt(tex: Texture, w2: int, h2: int, useBilinear: bool, x: int, y: int)
    requires tex.Valid() && w2 >= 1 && h2 >= 1 && 0 <= x < w2 && 0 <= y < h2
    ensures 0 <= y * w2 + x < w2 * h2
    ensures Resampled(tex, w2, h2, useBilinear)[y * w2 + x]
         == if useBilinear then BilinearPixel(tex, w2, h2, x, y) else PointPixel(tex, w2, h2, x, y)
  {
    RowMajorInRange(w2, h2, x, y);
    RowMajorSplit(w2, x, y);
  }

  /** Point scaling to the source's own size returns the source pixels. */
  lemma PointResampleSameSize(tex: Texture)
    requires tex.Valid()
    ensures Resampled(tex, tex.width, tex.height, false) == tex.pixels
  {
    var r := Resampled(tex, tex.width, tex.height, false);
    forall k | 0 <= k < |r|
      ensures r[k] == tex.pixels[k]
    {
      var w := tex.width;
      RowBelow(k, w, tex.height);
      PointIndexSameSize(w, tex.height, k % w, k / w);
      assert (k / w) * w + k % w == k;
      assert r[k] == PointPixel(tex, w, tex.height, k % w, k / w);
    }
  }

  /** Point scaling a single-coloured texture gives a single-coloured texture. */
  lemma PointResampleSolid(tex: Texture, w2: int, h2: int, c: Color32)
    requires tex.Valid() && w2 >= 1 && h2 >= 1
    requires forall i :: 0 <= i < |tex.pixels| ==> tex.pixels[i] == c
    ensures forall k :: 0 <= k < w2 * h2 ==> Resampled(tex, w2, h2, false)[k] == c
  {
  }

  // ---------------------------------------------------------------------
  // Row bands

  /** Mathf.Min(SystemInfo.processorCount, newHeight): the number of bands. */
  function Cores(processorCount: int, newHeight: int): (cores: int)
    requires processorCount >= 1 && newHeight >= 1
    ensures 1 <= cores <= newHeight && cores <= processorCount
    ensures cores == processorCount || cores == newHeight
  {
    if processorCount < newHeight then processorCount else newHeight
  }

  /** ThreadData: the output rows [start, end) one worker fills. */
  datatype Band = Band(start: int, end: int)

  /**
   * Band i of cores bands over newHeight rows: with slice = newHeight / cores,
   * [slice * i, slice * (i + 1)) for all but the last band, which runs
   * from slice * (cores - 1) to newHeight.
   */
  function BandOf(newHeight: int, cores: int, i: int): (b: Band)
    requires 1 <= cores <= newHeight && 0 <= i < cores
    ensures 0 <= b.start <= b.end <= newHeight
    ensures i == 0 ==> b.start == 0
    ensures i == cores - 1 ==> b.end == newHeight
    ensures b.end - b.start >= 1
  {
    var slice := newHeight / cores;
    assert slice >= 1;
    MulLeMul(i + 1, cores, slice);
    MulLeMul(cores - 1, cores, slice);
    if i < cores - 1 then Band(slice * i, slice * (i + 1))
    else Band(slice * (cores - 1), newHeight)
  }

  /** Each band ends where the next begins. */
  lemma BandsAdjacent(newHeight: int, cores: int, i: int)
    requires 1 <= cores <= newHeight && 0 <= i < cores - 1
    ensures BandOf(newHeight, cores, i).end == BandOf(newHeight, cores, i + 1).start
  {
  }

  /** Distinct bands share no row. */
  lemma {:induction false} BandsDisjoint(newHeight: int, cores: int, i: int, j: int)
    requires 1 <= cores <= newHeight && 0 <= i < j < cores
    ensures BandOf(newHeight, cores, i).end <= BandOf(newHeight, cores, j).start
  {
    if j == i + 1 {
      BandsAdjacent(newHeight, cores, i);
    } else {
      BandsDisjoint(newHeight, cores, i, j - 1);
      BandsAdjacent(newHeight, cores, j - 1);
    }
  }

  /** Every output row lies in exactly one band. */
  function BandContaining(newHeight: int, cores: int, y: int): (i: int)
    requires 1 <= cores <= newHeight && 0 <= y < newHeight
    ensures 0 <= i < cores
    ensures BandOf(newHeight, cores, i).start <= y < BandOf(newHeight, cores, i).end
    ensures forall j :: 0 <= j < cores && BandOf(newHeight, cores, j).start <= y < BandOf(newHeight, cores, j).end ==> j == i
  {
    var i := BandFrom(newHeight, cores, y, 0);
    BandsUnique(newHeight, cores, y, i);
    i
  }

  /** The band holding row y, searched from band i onwards, which starts at or before y. */
  function BandFrom(newHeight: int, cores: int, y: int, i: int): (j: int)
    requires 1 <= cores <= newHeight && 0 <= y < newHeight && 0 <= i < cores
    requires BandOf(newHeight, cores, i).start <= y
    ensures i <= j < cores
    ensures BandOf(newHeight, cores, j).start <= y < BandOf(newHeight, cores, j).end
    decreases cores - i
  {
    if y < BandOf(newHeight, cores, i).end then i
    else
      BandsAdjacent(newHeight, cores, i);
      BandFrom(newHeight, cores, y, i + 1)
  }

  /** No row lies in two bands. */
  lemma BandsUnique(newHeight: int, cores: int, y: int, i: int)
    requires 1 <= cores <= newHeight && 0 <= i < cores
    requires BandOf(newHeight, cores, i).start <= y < BandOf(newHeight, cores, i).end
    ensures forall j :: 0 <= j < cores && BandOf(newHeight, cores, j).start <= y < BandOf(newHeight, cores, j).end ==> j == i
  {
    forall j | 0 <= j < cores && BandOf(newHeight, cores, j).start <= y < BandOf(newHeight, cores, j).end
      ensures j == i
    {
      if j < i {
        BandsDisjoint(newHeight, cores, j, i);
      } else if i < j {
        BandsDisjoint(newHeight, cores, i, j);
      }
    }
  }

  // ---------------------------------------------------------------------
  // What each worker reads

  /**
   * Point sampling with ratios ratioX, ratioY from a source of width w with
   * pixels texColors yields target, row by row: every read is in range.
   */
  ghost predicate PointSampling(texColors: seq<Color32>, ratioX: real, ratioY: real, w: int,
                                w2: int, h2: int, target: seq<Color32>)
  {
    && |target| == w2 * h2
    && forall y, x {:trigger PointRead(ratioX, RowStart(ratioY, w, y), x)} ::
         0 <= y < h2 && 0 <= x < w2 && 0 <= y * w2 + x < |target| ==>
           && 0 <= PointRead(ratioX, RowStart(ratioY, w, y), x) < |texColors|
           && texColors[PointRead(ratioX, RowStart(ratioY, w, y), x)] == target[y * w2 + x]
  }

  /**
   * Bilinear sampling with ratios ratioX, ratioY from a w x h source with
   * pixels texColors yields target, row by row: every read is in range.
   */
  ghost predicate BilinearSampling(texColors: seq<Color32>, ratioX: real, ratioY: real, w: int, h: int,
                                   w2: int, h2: int, target: seq<Color32>)
  {
    && |target| == w2 * h2
    && forall y, x {:trigger ClampedTaps(w, h, ratioX, ratioY, x, y)} ::
         0 <= y < h2 && 0 <= x < w2 && 0 <= y * w2 + x < |target| ==>
           && TapsIn(ClampedTaps(w, h, ratioX, ratioY, x, y), texColors)
           && ToColor32(Blend(texColors, ClampedTaps(w, h, ratioX, ratioY, x, y))) == target[y * w2 + x]
  }

  /** The point ratios of ThreadedScale sample tex into the point-scaled buffer. */
  lemma PointSampled(tex: Texture, w2: int, h2: int)
    requires tex.Valid() && w2 >= 1 && h2 >= 1
    ensures PointSampling(tex.pixels, PointRatio(tex.width, w2), PointRatio(tex.height, h2), tex.width,
                          w2, h2, Resampled(tex, w2, h2, false))
  {
    var ratioX, ratioY := PointRatio(tex.width, w2), PointRatio(tex.height, h2);
    var target := Resampled(tex, w2, h2, false);
    forall y, x | 0 <= y < h2 && 0 <= x < w2
      ensures 0 <= y * w2 + x < |target|
      ensures 0 <= PointRead(ratioX, RowStart(ratioY, tex.width, y), x) < |tex.pixels|
      ensures tex.pixels[PointRead(ratioX, RowStart(ratioY, tex.width, y), x)] == target[y * w2 + x]
    {
      PointSlot(tex, w2, h2, ratioX, ratioY, x, y);
    }
  }

  /** One instance of PointSampling: output pixel (x, y). */
  lemma PointSampledAt(texColors: seq<Color32>, ratioX: real, ratioY: real, w: int,
                       w2: int, h2: int, target: seq<Color32>, x: int, y: int)
    requires PointSampling(texColors, ratioX, ratioY, w, w2, h2, target)
    requires 0 <= x < w2 && 0 <= y < h2
    ensures 0 <= y * w2 + x < |target|
    ensures 0 <= PointRead(ratioX, RowStart(ratioY, w, y), x) < |texColors|
    ensures texColors[PointRead(ratioX, RowStart(ratioY, w, y), x)] == target[y * w2 + x]
  {
    RowMajorInRange(w2, h2, x, y);
  }

  /** The bilinear ratios of ThreadedScale sample tex into the bilinear-scaled buffer. */
  lemma BilinearSampled(tex: Texture, w2: int, h2: int)
    requires tex.Valid() && w2 >= 1 && h2 >= 1
    ensures BilinearSampling(tex.pixels, BilinearRatio(tex.width, w2), BilinearRatio(tex.height, h2),
                             tex.width, tex.height, w2, h2, Resampled(tex, w2, h2, true))
  {
    var ratioX, ratioY := BilinearRatio(tex.width, w2), BilinearRatio(tex.height, h2);
    var target := Resampled(tex, w2, h2, true);
    forall y, x | 0 <= y < h2 && 0 <= x < w2
      ensures 0 <= y * w2 + x < |target|
      ensures TapsIn(ClampedTaps(tex.width, tex.height, ratioX, ratioY, x, y), tex.pixels)
      ensures ToColor32(Blend(tex.pixels, ClampedTaps(tex.width, tex.height, ratioX, ratioY, x, y))) == target[y * w2 + x]
    {
      BilinearSlot(tex, w2, h2, x, y);
    }
  }

  /**
   * What PointScale reads for output pixel (x, y), from the ratios it
   * holds, is slot y * w2 + x of the scaled buffer.
   */
  lemma PointSlot(tex: Texture, w2: int, h2: int, ratioX: real, ratioY: real, x: int, y: int)
    requires tex.Valid() && w2 >= 1 && h2 >= 1 && 0 <= x < w2 && 0 <= y < h2
    requires ratioX == PointRatio(tex.width, w2) && ratioY == PointRatio(tex.height, h2)
    ensures 0 <= y * w2 + x < w2 * h2
    ensures var i := PointRead(ratioX, RowStart(ratioY, tex.width, y), x);
            0 <= i < |tex.pixels| && tex.pixels[i] == Resampled(tex, w2, h2, false)[y * w2 + x]
  {
    assert PointIndex(tex.width, tex.height, w2, h2, x, y) == PointRead(ratioX, RowStart(ratioY, tex.width, y), x);
    ResampledAt(tex, w2, h2, false, x, y);
  }

  /**
   * What BilinearScale reads and blends for output pixel (x, y) is slot
   * y * w2 + x of the scaled buffer, and all four reads lie inside the source.
   */
  lemma BilinearSlot(tex: Texture, w2: int, h2: int, x: int, y: int)
    requires tex.Valid() && w2 >= 1 && h2 >= 1 && 0 <= x < w2 && 0 <= y < h2
    ensures 0 <= y * w2 + x < w2 * h2
    ensures var t := ClampedTaps(tex.width, tex.height, BilinearRatio(tex.width, w2), BilinearRatio(tex.height, h2), x, y);
            TapsIn(t, tex.pixels) && ToColor32(Blend(tex.pixels, t)) == Resampled(tex, w2, h2, true)[y * w2 + x]
  {
    ResampledAt(tex, w2, h2, true, x, y);
  }

  /** The row values BilinearScale hoists out of its inner loop give ClampedTaps. */
  lemma HoistedTaps(w: int, h: int, ratioX: real, ratioY: real, x: int, y: int,
                    yFloor: int, y1: int, y2: int, xFloor: int, xNext: int)
    requires yFloor == ScaledFloor(y, ratioY) && xFloor == ScaledFloor(x, ratioX)
    requires y1 == yFloor * w
    requires y2 == (if yFloor + 1 < h then yFloor + 1 else yFloor) * w
    requires xNext == (if xFloor + 1 < w then xFloor + 1 else xFloor)
    ensures ClampedTaps(w, h, ratioX, ratioY, x, y)
            == Taps(y1 + xFloor, y1 + xNext, y2 + xFloor, y2 + xNext,
                    x as real * ratioX - xFloor as real, y as real * ratioY - yFloor as real)
  {
  }

  // ---------------------------------------------------------------------
  // The resampler's state and its loops

  /** The write counts after one more write to each slot in [lo, hi). */
  ghost function Bumped(counts: seq<int>, lo: int, hi: int): (r: seq<int>)
    ensures |r| == |counts|
    ensures forall k :: 0 <= k < |r| ==> r[k] == if lo <= k < hi then counts[k] + 1 else counts[k]
  {
    seq(|counts|, k requires 0 <= k < |counts| => if lo <= k < hi then counts[k] + 1 else counts[k])
  }

  /** One more write to [lo, mid) and then to [mid, hi) is one more write to [lo, hi). */
  lemma BumpedJoin(counts: seq<int>, lo: int, mid: int, hi: int)
    requires lo <= mid <= hi
    ensures Bumped(Bumped(counts, lo, mid), mid, hi) == Bumped(counts, lo, hi)
  {
  }

  /**
   * The static state of the Scale class: the source pixels, the output
   * buffer, the source and output widths and the two ratios. The source
   * height h is kept as well, for the clamped bilinear reads. The worker
   * bookkeeping (the finish counter and its mutex) is not modelled.
   */
  class Scaler {
    var texColors: seq<Color32>
    var newColors: array<Color32>
    var w: int
    var h: int
    var w2: int
    var ratioX: real
    var ratioY: real
    /** How often each slot of newColors has been assigned since it was allocated. */
    ghost var written: seq<int>

    constructor ()
      ensures texColors == [] && newColors.Length == 0 && written == []
    {
      texColors := [];
      newColors := new Color32[0];
      w, h, w2 := 0, 0, 0;
      ratioX, ratioY := 0.0, 0.0;
      written := [];
    }

    /** The fields as ThreadedScale sets them for scaling tex to w2 x newHeight. */
    ghost predicate Prepared(tex: Texture, newHeight: int, useBilinear: bool)
      reads this`texColors, this`newColors, this`w, this`h, this`w2, this`ratioX, this`ratioY
    {
      && tex.Valid() && newHeight >= 1 && w2 >= 1
      && texColors == tex.pixels && w == tex.width && h == tex.height
      && newColors.Length == w2 * newHeight
      && ratioX == (if useBilinear then BilinearRatio(w, w2) else PointRatio(w, w2))
      && ratioY == (if useBilinear then BilinearRatio(h, newHeight) else PointRatio(h, newHeight))
    }

    /** The output buffer holds newHeight rows of w2 slots, each with its write count. */
    ghost predicate Shaped(newHeight: int)
      reads this`newColors, this`w2, this`written
    {
      w2 >= 1 && newHeight >= 1 && newColors.Length == w2 * newHeight && |written| == newColors.Length
    }

    /** What a worker for the given method reads yields target. */
    ghost predicate Samples(useBilinear: bool, newHeight: int, target: seq<Color32>)
      reads this`texColors, this`w, this`h, this`w2, this`ratioX, this`ratioY
    {
      if useBilinear then BilinearSampling(texColors, ratioX, ratioY, w, h, w2, newHeight, target)
      else PointSampling(texColors, ratioX, ratioY, w, w2, newHeight, target)
    }

    /**
     * The first half of ThreadedScale: keeps the source, allocates the
     * output buffer and sets the ratios of the chosen method.
     */
    method Prepare(tex: Texture, newWidth: int, newHeight: int, useBilinear: bool)
      requires tex.Valid() && newWidth >= 1 && newHeight >= 1
      modifies this
      ensures fresh(newColors)
      ensures Prepared(tex, newHeight, useBilinear) && w2 == newWidth && Shaped(newHeight)
      ensures Samples(useBilinear, newHeight, Resampled(tex, newWidth, newHeight, useBilinear))
      ensures forall k :: 0 <= k < |written| ==> written[k] == 0
    {
      texColors := tex.pixels;
      newColors := new Color32[newWidth * newHeight];
      written := seq(newWidth * newHeight, _ => 0);
      w := tex.width;
      h := tex.height;
      w2 := newWidth;
      if useBilinear {
        ratioX := BilinearRatio(w, w2);
        ratioY := BilinearRatio(tex.height, newHeight);
        BilinearSampled(tex, w2, newHeight);
      } else {
        ratioX := PointRatio(w, w2);
        ratioY := PointRatio(tex.height, newHeight);
        PointSampled(tex, w2, newHeight);
      }
    }

    /**
     * Scales tex to newWidth x newHeight: sets the static fields, splits
     * the rows into Cores(processorCount, newHeight) bands and fills each.
     * Every slot of the returned buffer is written exactly once.
     */
    method ThreadedScale(tex: Texture, newWidth: int, newHeight: int, useBilinear: bool, processorCount: int)
      returns (r: array<Color32>)
      requires tex.Valid() && newWidth >= 1 && newHeight >= 1 && processorCount >= 1
      modifies this
      ensures fresh(r) && r == newColors
      ensures Prepared(tex, newHeight, useBilinear) && w2 == newWidth
      ensures r[..] == Resampled(tex, newWidth, newHeight, useBilinear)
      ensures |written| == r.Length && forall k :: 0 <= k < |written| ==> written[k] == 1
    {
      Prepare(tex, newWidth, newHeight, useBilinear);
      ghost var target := Resampled(tex, newWidth, newHeight, useBilinear);
      ghost var w0 := written;
      var cores := Cores(processorCount, newHeight);
      var slice := newHeight / cores;

      if cores > 1 {
        var i := 0;
        ghost var done := 0;
        while i < cores - 1
          invariant 0 <= i <= cores - 1
          invariant Prepared(tex, newHeight, useBilinear) && w2 == newWidth && fresh(newColors)
          invariant Shaped(newHeight) && Samples(useBilinear, newHeight, target)
          invariant BandOf(newHeight, cores, i).start == slice * i && done == slice * i * w2
          invariant 0 <= done <= newColors.Length
          invariant forall k :: 0 <= k < done ==> newColors[k] == target[k]
          invariant written == Bumped(w0, 0, done)
        {
          var band := Band(slice * i, slice * (i + 1));
          assert band == BandOf(newHeight, cores, i);
          FillBand(band, useBilinear, newHeight, target);
          BumpedJoin(w0, 0, done, band.end * w2);
          done := band.end * w2;
          i := i + 1;
        }
        var band := Band(slice * i, newHeight);
        assert band == BandOf(newHeight, cores, cores - 1);
        assert band.start * w2 == done && band.end * w2 == newColors.Length;
        FillBand(band, useBilinear, newHeight, target);
        BumpedJoin(w0, 0, done, newColors.Length);
      } else {
        assert newHeight * w2 == newColors.Length;
        FillBand(Band(0, newHeight), useBilinear, newHeight, target);
      }
      assert written == Bumped(w0, 0, newColors.Length);
      assert forall k :: 0 <= k < newColors.Length ==> newColors[k] == target[k];
      r := newColors;
      assert r[..] == target;
    }

    /** The worker ThreadedScale starts for one band: BilinearScale or PointScale. */
    method FillBand(band: Band, useBilinear: bool, ghost newHeight: int, ghost target: seq<Color32>)
      requires Shaped(newHeight) && Samples(useBilinear, newHeight, target)
      requires 0 <= band.start <= band.end <= newHeight
      modifies newColors, this`written
      ensures Shaped(newHeight)
      ensures band.start * w2 <= band.end * w2 <= newColors.Length
      ensures forall k :: band.start * w2 <= k < band.end * w2 ==> newColors[k] == target[k]
      ensures forall k :: 0 <= k < newColors.Length && !(band.start * w2 <= k < band.end * w2) ==> newColors[k] == old(newColors[k])
      ensures written == Bumped(old(written), band.start * w2, band.end * w2)
    {
      if useBilinear {
        BilinearScale(band, newHeight, target);
      } else {
        PointScale(band, newHeight, target);
      }
    }

    /** Fills the output rows [band.start, band.end) by nearest-neighbour sampling. */
    method PointScale(band: Band, ghost newHeight: int, ghost target: seq<Color32>)
      requires Shaped(newHeight) && Samples(false, newHeight, target)
      requires 0 <= band.start <= band.end <= newHeight
      modifies newColors, this`written
      ensures Shaped(newHeight)
      ensures band.start * w2 <= band.end * w2 <= newColors.Length
      ensures forall k :: band.start * w2 <= k < band.end * w2 ==> newColors[k] == target[k]
      ensures forall k :: 0 <= k < newColors.Length && !(band.start * w2 <= k < band.end * w2) ==> newColors[k] == old(newColors[k])
      ensures written == Bumped(old(written), band.start * w2, band.end * w2)
    {
      assert PointSampling(texColors, ratioX, ratioY, w, w2, newHeight, target);
      PointRows(newColors, texColors, ratioX, ratioY, w, w2, band.start, band.end, newHeight, target);
      written := Bumped(written, band.start * w2, band.end * w2);
    }

    /**
     * Fills the output rows [band.start, band.end) by bilinear sampling,
     * with the neighbour column and row clamped to the source's last ones.
     */
    method BilinearScale(band: Band, ghost newHeight: int, ghost target: seq<Color32>)
      requires Shaped(newHeight) && Samples(true, newHeight, target)
      requires 0 <= band.start <= band.end <= newHeight
      modifies newColors, this`written
      ensures Shaped(newHeight)
      ensures band.start * w2 <= band.end * w2 <= newColors.Length
      ensures forall k :: band.start * w2 <= k < band.end * w2 ==> newColors[k] == target[k]
      ensures forall k :: 0 <= k < newColors.Length && !(band.start * w2 <= k < band.end * w2) ==> newColors[k] == old(newColors[k])
      ensures written == Bumped(old(written), band.start * w2, band.end * w2)
    {
      assert BilinearSampling(texColors, ratioX, ratioY, w, h, w2, newHeight, target);
      BilinearRows(newColors, texColors, ratioX, ratioY, w, h, w2, band.start, band.end, newHeight, target);
      written := Bumped(written, band.start * w2, band.end * w2);
    }
  }

  /** PointScale's outer loop over the output rows [start, end) of the dw-wide buffer out. */
  method PointRows(out: array<Color32>, src: seq<Color32>, rX: real, rY: real, sw: int, dw: int, start: int, end: int,
                    ghost newHeight: int, ghost target: seq<Color32>)
    requires PointSampling(src, rX, rY, sw, dw, newHeight, target)
    requires dw >= 1 && out.Length == dw * newHeight
    requires 0 <= start <= end <= newHeight
    modifies out
    ensures start * dw <= end * dw <= out.Length
    ensures forall k :: start * dw <= k < end * dw ==> out[k] == target[k]
    ensures forall k :: 0 <= k < out.Length && !(start * dw <= k < end * dw) ==> out[k] == old(out[k])
  {
    MulLeMul(start, end, dw);
    MulLeMul(end, newHeight, dw);
    ghost var first, last := start * dw, end * dw;
    var y := start;
    ghost var yw := first;
    while y < end
      invariant start <= y <= end && yw == y * dw
      invariant first <= yw <= last <= out.Length
      invariant forall k :: first <= k < yw ==> out[k] == target[k]
      invariant forall k :: 0 <= k < out.Length && !(first <= k < yw) ==> out[k] == old(out[k])
    {
      MulLeMul(y + 1, end, dw);
      assert yw + dw == (y + 1) * dw;
      ghost var before := out[..];
      PointRow(out, src, rX, rY, sw, dw, y, yw, newHeight, target);
      forall k | first <= k < yw + dw
        ensures out[k] == target[k]
      {
        if k < yw {
          assert out[k] == before[k];
        }
      }
      forall k | 0 <= k < out.Length && !(first <= k < yw + dw)
        ensures out[k] == old(out[k])
      {
        assert out[k] == before[k];
      }
      yw := yw + dw;
      y := y + 1;
    }
  }

  /** BilinearScale's outer loop over the output rows [start, end) of the dw-wide buffer out. */
  method BilinearRows(out: array<Color32>, src: seq<Color32>, rX: real, rY: real, sw: int, sh: int, dw: int, start: int, end: int,
                    ghost newHeight: int, ghost target: seq<Color32>)
    requires BilinearSampling(src, rX, rY, sw, sh, dw, newHeight, target)
    requires dw >= 1 && out.Length == dw * newHeight
    requires 0 <= start <= end <= newHeight
    modifies out
    ensures start * dw <= end * dw <= out.Length
    ensures forall k :: start * dw <= k < end * dw ==> out[k] == target[k]
    ensures forall k :: 0 <= k < out.Length && !(start * dw <= k < end * dw) ==> out[k] == old(out[k])
  {
    MulLeMul(start, end, dw);
    MulLeMul(end, newHeight, dw);
    ghost var first, last := start * dw, end * dw;
    var y := start;
    ghost var yw := first;
    while y < end
      invariant start <= y <= end && yw == y * dw
      invariant first <= yw <= last <= out.Length
      invariant forall k :: first <= k < yw ==> out[k] == target[k]
      invariant forall k :: 0 <= k < out.Length && !(first <= k < yw) ==> out[k] == old(out[k])
    {
      MulLeMul(y + 1, end, dw);
      assert yw + dw == (y + 1) * dw;
      ghost var before := out[..];
      BilinearRow(out, src, rX, rY, sw, sh, dw, y, yw, newHeight, target);
      forall k | first <= k < yw + dw
        ensures out[k] == target[k]
      {
        if k < yw {
          assert out[k] == before[k];
        }
      }
      forall k | 0 <= k < out.Length && !(first <= k < yw + dw)
        ensures out[k] == old(out[k])
      {
        assert out[k] == before[k];
      }
      yw := yw + dw;
      y := y + 1;
    }
  }

  /**
   * One pass of PointScale's outer loop: output row y of the dw-wide buffer
   * out, slots y * dw up to y * dw + dw, read from the source src of width sw.
   */
  method PointRow(out: array<Color32>, src: seq<Color32>, rX: real, rY: real, sw: int, dw: int, y: int,
                  ghost row: int, ghost newHeight: int, ghost target: seq<Color32>)
    requires PointSampling(src, rX, rY, sw, dw, newHeight, target)
    requires dw >= 1 && out.Length == dw * newHeight
    requires 0 <= y < newHeight && row == y * dw
    modifies out
    ensures row + dw <= out.Length
    ensures forall k :: row <= k < row + dw ==> out[k] == target[k]
    ensures forall k :: 0 <= k < out.Length && !(row <= k < row + dw) ==> out[k] == old(out[k])
  {
    var thisY := RowStart(rY, sw, y);
    var yw := y * dw;
    MulLeMul(y + 1, newHeight, dw);
    var x := 0;
    while x < dw
      invariant 0 <= x <= dw && yw == row && yw + dw <= out.Length
      invariant forall k :: yw <= k < yw + x ==> out[k] == target[k]
      invariant forall k :: 0 <= k < out.Length && !(yw <= k < yw + x) ==> out[k] == old(out[k])
    {
      PointSampledAt(src, rX, rY, sw, dw, newHeight, target, x, y);
      out[yw + x] := src[PointRead(rX, thisY, x)];
      x := x + 1;
    }
  }

  /**
   * One pass of BilinearScale's outer loop: output row y of the dw-wide
   * buffer out, slots y * dw up to y * dw + dw, read from the sw x sh source src.
   */
  method BilinearRow(out: array<Color32>, src: seq<Color32>, rX: real, rY: real, sw: int, sh: int, dw: int, y: int,
                     ghost row: int, ghost newHeight: int, ghost target: seq<Color32>)
    requires BilinearSampling(src, rX, rY, sw, sh, dw, newHeight, target)
    requires dw >= 1 && out.Length == dw * newHeight
    requires 0 <= y < newHeight && row == y * dw
    modifies out
    ensures row + dw <= out.Length
    ensures forall k :: row <= k < row + dw ==> out[k] == target[k]
    ensures forall k :: 0 <= k < out.Length && !(row <= k < row + dw) ==> out[k] == old(out[k])
  {
    var yFloor := ScaledFloor(y, rY);
    var y1 := yFloor * sw;
    var y2 := (if yFloor + 1 < sh then yFloor + 1 else yFloor) * sw;
    var yw := y * dw;
    MulLeMul(y + 1, newHeight, dw);
    var x := 0;
    while x < dw
      invariant 0 <= x <= dw && yw == row && yw + dw <= out.Length
      invariant forall k :: yw <= k < yw + x ==> out[k] == target[k]
      invariant forall k :: 0 <= k < out.Length && !(yw <= k < yw + x) ==> out[k] == old(out[k])
    {
      var c := BilinearSample(src, sw, sh, rX, rY, x, y, yFloor, y1, y2, dw, newHeight, target);
      out[yw + x] := c;
      x := x + 1;
    }
  }

  /**
   * The body of BilinearScale's inner loop: the blend of the four reads
   * for output pixel (x, y), from the row values hoisted out of the loop.
   */
  method BilinearSample(src: seq<Color32>, sw: int, sh: int, rX: real, rY: real, x: int, y: int,
                        yFloor: int, y1: int, y2: int,
                        ghost dw: int, ghost newHeight: int, ghost target: seq<Color32>) returns (c: Color32)
    requires BilinearSampling(src, rX, rY, sw, sh, dw, newHeight, target)
    requires 0 <= x < dw && 0 <= y < newHeight
    requires yFloor == ScaledFloor(y, rY) && y1 == yFloor * sw
    requires y2 == (if yFloor + 1 < sh then yFloor + 1 else yFloor) * sw
    ensures 0 <= y * dw + x < |target| && c == target[y * dw + x]
  {
    RowMajorInRange(dw, newHeight, x, y);
    var xFloor := ScaledFloor(x, rX);
    var xNext := if xFloor + 1 < sw then xFloor + 1 else xFloor;
    var xLerp := x as real * rX - xFloor as real;
    var taps := Taps(y1 + xFloor, y1 + xNext, y2 + xFloor, y2 + xNext, xLerp, y as real * rY - yFloor as real);
    HoistedTaps(sw, sh, rX, rY, x, y, yFloor, y1, y2, xFloor, xNext);
    assert taps == ClampedTaps(sw, sh, rX, rY, x, y);
    c := ToColor32(Blend(src, taps));
  }

  /** Scale.Point: nearest-neighbour scaling of tex to newSize. */
  method Point(tex: Texture, newSize: Size, processorCount: int) returns (r: array<Color32>)
    requires tex.Valid() && newSize.x >= 1 && newSize.y >= 1 && processorCount >= 1
    ensures fresh(r) && r[..] == Resampled(tex, newSize.x, newSize.y, false)
  {
    var scaler := new Scaler();
    r := scaler.ThreadedScale(tex, newSize.x, newSize.y, false, processorCount);
  }

  /** Scale.Bilinear: bilinear scaling of tex to newSize. */
  method Bilinear(tex: Texture, newSize: Size, processorCount: int) returns (r: array<Color32>)
    requires tex.Valid() && newSize.x >= 1 && newSize.y >= 1 && processorCount >= 1
    ensures fresh(r) && r[..] == Resampled(tex, newSize.x, newSize.y, true)
  {
    var scaler := new Scaler();
    r := scaler.ThreadedScale(tex, newSize.x, newSize.y, true, processorCount);
  }
}

=== FILE: texture_processor.dfy ===
/**
 * The texture processor's pipeline: the size of the generated texture,
 * and the static Generate that resamples the source when the size
 * differs and then grades every pixel (brightness, contrast, gamma,
 * saturation, colour balance) into an 8-bit colour, alpha untouched.
 *
 * Math.Pow is not part of this model: it is a parameter pow, any
 * function of base and exponent. SystemInfo.processorCount is the
 * parameter processorCount.
 */
module TextureProcessor {
  import opened Wrappers
  import opened TextureTypes
  import Scale

  // ---------------------------------------------------------------------
  // The size of the result

  /**
   * GetResultSize: zero without a source; otherwise each positive Width /
   * Height setting replaces the source's dimension. The code takes that
   * branch only when some setting differs from the source, but the result
   * is the same either way.
   */
  function GetResultSize(tp: Settings): (s: Size)
    ensures tp.source.None? ==> s == Size(0, 0)
    ensures tp.source.Some? ==>
              && s.x == (if tp.width > 0 then tp.width else tp.source.value.width)
              && s.y == (if tp.height > 0 then tp.height else tp.source.value.height)
  {
    if tp.source.None? then Size(0, 0)
    else
      var src := tp.source.value;
      if (tp.width > 0 && tp.width != src.width) || (tp.height > 0 && tp.height != src.height) then
        var w := if tp.width > 0 then tp.width else src.width;
        var h := if tp.height > 0 then tp.height else src.height;
        Size(w, h)
      else
        Size(src.width, src.height)
  }

  /** The result differs in size from a source exactly when a positive setting disagrees with it. */
  lemma ResizedExactly(tp: Settings)
    requires tp.source.Some?
    ensures var s, src := GetResultSize(tp), tp.source.value;
            (s.x != src.width || s.y != src.height)
            <==> ((tp.width > 0 && tp.width != src.width) || (tp.height > 0 && tp.height != src.height))
  {
  }

  /** A valid source gives a result at least one pixel in each direction. */
  lemma ResultSizePositive(tp: Settings)
    requires tp.source.Some? && tp.source.value.Valid()
    ensures GetResultSize(tp).x >= 1 && GetResultSize(tp).y >= 1
  {
  }

  // ---------------------------------------------------------------------
  // Grading one pixel

  /** Three colour channels on the 0..255 scale, as doubles (modelled as reals). */
  datatype Rgb = Rgb(r: real, g: real, b: real)

  /** The values Generate derives from the settings before its pixel loop. */
  datatype Grading = Grading(
    brightness: real,       // Brightness * 255
    contrast: real,         // Contrast * 255
    contrastFactor: real,
    gammaCorrection: real,  // 1 / Gamma
    saturation: real,
    red: real,
    green: real,
    blue: real)

  /** The contrast factor 259 (c + 255) / (255 (259 - c)) for c = Contrast * 255. */
  function ContrastFactor(contrast: real): (f: real)
    requires contrast != 259.0
    ensures contrast == 0.0 ==> f == 1.0
  {
    (259.0 * (contrast + 255.0)) / (255.0 * (259.0 - contrast))
  }

  /** Over the slider's range the factor is non-negative, and above 1 exactly when the contrast is raised. */
  lemma ContrastFactorRange(contrast: real)
    requires -255.0 <= contrast <= 255.0
    ensures ContrastFactor(contrast) >= 0.0
    ensures ContrastFactor(contrast) > 1.0 <==> contrast > 0.0
  {
    var n, d := 259.0 * (contrast + 255.0), 255.0 * (259.0 - contrast);
    var f := ContrastFactor(contrast);
    assert d > 0.0 && n >= 0.0 && f == n / d;
    assert f * d == n;
    assert n - d == 514.0 * contrast;
    if f > 1.0 {
      assert (f - 1.0) * d > 0.0;
    } else {
      assert (1.0 - f) * d >= 0.0;
    }
  }

  /** The grading values for tp, computed once before the loop. */
  function GradingOf(tp: Settings): (g: Grading)
    requires tp.gamma != 0.0 && tp.contrast * 255.0 != 259.0
    ensures g.brightness == 0.0 <==> tp.brightness == 0.0
    ensures g.contrast == 0.0 <==> tp.contrast == 0.0
    ensures g.gammaCorrection == 1.0 <==> tp.gamma == 1.0
    ensures g.saturation == tp.saturation && g.red == tp.red && g.green == tp.green && g.blue == tp.blue
  {
    var contrast := tp.contrast * 255.0;
    Grading(tp.brightness * 255.0, contrast, ContrastFactor(contrast), 1.0 / tp.gamma,
            tp.saturation, tp.red, tp.green, tp.blue)
  }

  /**
   * Generate's local Remap: the affine map sending oldMin to newMin and
   * oldMax to newMax, applied to value.
   */
  function Remap(value: real, oldMin: real, oldMax: real, newMin: real, newMax: real): (r: real)
    requires oldMin != oldMax
    ensures value == oldMin ==> r == newMin
    ensures value == oldMax ==> r == newMax
  {
    var x, d := newMax - newMin, oldMax - oldMin;
    Cancel(x, d);
    (x * (value - oldMin) / d) + newMin
  }

  /** Multiplying by a non-zero d and dividing by it again gives x back. */
  lemma Cancel(x: real, d: real)
    requires d != 0.0
    ensures x * d / d == x
  {
    var q := x * d / d;
    assert q * d == x * d;
    assert (q - x) * d == 0.0;
  }

  /** A quotient n / d with 0 <= n <= d lies in [0, 1]. */
  lemma UnitQuotient(n: real, d: real)
    requires d > 0.0 && 0.0 <= n <= d
    ensures 0.0 <= n / d <= 1.0
  {
  }

  /** Dividing a product by d divides its second factor by d. */
  lemma MulDiv(x: real, n: real, d: real)
    requires d != 0.0
    ensures x * n / d == x * (n / d)
  {
  }

  /** A value between the old ends is sent between the new ends. */
  lemma RemapBetween(value: real, oldMin: real, oldMax: real, newMin: real, newMax: real)
    requires oldMin < oldMax && oldMin <= value <= oldMax && newMin <= newMax
    ensures newMin <= Remap(value, oldMin, oldMax, newMin, newMax) <= newMax
  {
    var x, n, d := newMax - newMin, value - oldMin, oldMax - oldMin;
    UnitQuotient(n, d);
    MulDiv(x, n, d);
    Scale.ScaleOrder(x, 0.0, n / d);
    Scale.ScaleOrder(x, n / d, 1.0);
  }

  /** Brightness: the scaled brightness is added to each channel when it is not zero. */
  function Brighten(p: Rgb, brightness: real): Rgb
  {
    if brightness != 0.0 then Rgb(p.r + brightness, p.g + brightness, p.b + brightness) else p
  }

  /** Contrast: each channel is stretched around 128 by the factor, when the contrast is not zero. */
  function Contrast(p: Rgb, contrast: real, factor: real): Rgb
  {
    if contrast != 0.0 then
      Rgb(factor * (p.r - 128.0) + 128.0, factor * (p.g - 128.0) + 128.0, factor * (p.b - 128.0) + 128.0)
    else p
  }

  /** Gamma: 255 * Pow(v / 255, gammaCorrection) on each channel, unless the correction is 1. */
  function Gamma(p: Rgb, gammaCorrection: real, pow: (real, real) -> real): Rgb
  {
    if gammaCorrection != 1.0 then
      Rgb(255.0 * pow(p.r / 255.0, gammaCorrection),
          255.0 * pow(p.g / 255.0, gammaCorrection),
          255.0 * pow(p.b / 255.0, gammaCorrection))
    else p
  }

  /** The blue weight of the grey value as the code writes it. */
  const BlueAsWritten: real := 0.144

  /** The blue weight of the standard luma formula, which the grey value evidently intends. */
  const BlueIntended: real := 0.114

  /** The grey value of the saturation and balance stages: 0.299 r + 0.587 g + blueWeight b. */
  function Grey(p: Rgb, blueWeight: real): (gray: real)
    ensures p.r == p.g == p.b ==> gray == (0.886 + blueWeight) * p.r
  {
    0.299 * p.r + 0.587 * p.g + blueWeight * p.b
  }

  /** The grey value as written: 0.299 r + 0.587 g + 0.144 b. */
  function LumaAsWritten(p: Rgb): (gray: real)
    ensures p.r == p.g == p.b ==> gray == 1.03 * p.r
    ensures gray == Grey(p, BlueIntended) + 0.03 * p.b
  {
    Grey(p, BlueAsWritten)
  }

  /** A neutral grey pixel, desaturated with the weights as written, comes out lighter. */
  lemma LumaAsWrittenBrightensGrey()
    ensures LumaAsWritten(Rgb(128.0, 128.0, 128.0)) == 131.84
    ensures ClampToByte(Remap(-1.0, -1.0, 0.0, LumaAsWritten(Rgb(128.0, 128.0, 128.0)), 128.0)) == 131
  {
  }

  /** The grey value with the standard luma weights 0.299, 0.587, 0.114. */
  function Luma(p: Rgb): (gray: real)
    ensures p.r == p.g == p.b ==> gray == p.r
    ensures Min3(p.r, p.g, p.b) <= gray <= Max3(p.r, p.g, p.b)
  {
    Grey(p, BlueIntended)
  }

  function Min3(a: real, b: real, c: real): real
  {
    if a <= b && a <= c then a else if b <= c then b else c
  }

  function Max3(a: real, b: real, c: real): real
  {
    if a >= b && a >= c then a else if b >= c then b else c
  }

  /** Saturation: each channel is remapped from [-1, 0] to [gray, channel], unless the saturation is 0. */
  function Saturate(p: Rgb, saturation: real, gray: real): Rgb
  {
    if saturation != 0.0 then
      Rgb(Remap(saturation, -1.0, 0.0, gray, p.r),
          Remap(saturation, -1.0, 0.0, gray, p.g),
          Remap(saturation, -1.0, 0.0, gray, p.b))
    else p
  }

  /**
   * Colour balance, unless all three settings are 0: each channel is pulled
   * towards gray by the other two settings (blue or green first, as the code
   * nests them) and then towards 1.0 by its own.
   */
  function Balance(p: Rgb, red: real, green: real, blue: real, gray: real): Rgb
  {
    if red != 0.0 || green != 0.0 || blue != 0.0 then
      Rgb(Remap(red, 0.0, -1.0, Remap(green, 0.0, -1.0, Remap(blue, 0.0, -1.0, p.r, gray), gray), 1.0),
          Remap(green, 0.0, -1.0, Remap(red, 0.0, -1.0, Remap(blue, 0.0, -1.0, p.g, gray), gray), 1.0),
          Remap(blue, 0.0, -1.0, Remap(red, 0.0, -1.0, Remap(green, 0.0, -1.0, p.b, gray), gray), 1.0))
    else p
  }

  /** The byte cast of (v > 255 ? 255 : v < 0 ? 0 : v): clamped, then truncated. */
  function ClampToByte(v: real): (b: byte)
    ensures v >= 255.0 ==> b == 255
    ensures v < 0.0 ==> b == 0
    ensures 0.0 <= v <= 255.0 ==> b as int == v.Floor
  {
    if v > 255.0 then 255 else if v < 0.0 then 0 else v.Floor as byte
  }

  /** Clamping and truncating keeps the order of two values. */
  lemma ClampToByteMonotone(u: real, v: real)
    requires u <= v
    ensures ClampToByte(u) <= ClampToByte(v)
  {
  }

  /**
   * The three colour channels of the pixel after every stage, before the
   * byte conversion, with blueWeight as the grey value's blue weight.
   */
  function GradeRgb(g: Grading, pow: (real, real) -> real, c: Color32, blueWeight: real): Rgb
  {
    var p0 := Rgb(c.r as real, c.g as real, c.b as real);
    var p1 := Brighten(p0, g.brightness);
    var p2 := Contrast(p1, g.contrast, g.contrastFactor);
    var p3 := Gamma(p2, g.gammaCorrection, pow);
    var gray := Grey(p3, blueWeight);
    var p4 := Saturate(p3, g.saturation, gray);
    Balance(p4, g.red, g.green, g.blue, gray)
  }

  /**
   * One pass of Generate's pixel loop, with blueWeight as the grey value's
   * blue weight (Generate itself uses BlueAsWritten): the graded colour
   * keeps the pixel's alpha.
   */
  function GradePixel(g: Grading, pow: (real, real) -> real, c: Color32, blueWeight: real): (d: Color32)
    ensures d.a == c.a
  {
    var p := GradeRgb(g, pow, c, blueWeight);
    Color32(ClampToByte(p.r), ClampToByte(p.g), ClampToByte(p.b), c.a)
  }

  /** Settings that change nothing: no brightness, contrast, saturation or balance, and gamma 1. */
  predicate Neutral(tp: Settings)
  {
    tp.brightness == 0.0 && tp.contrast == 0.0 && tp.gamma == 1.0 &&
    tp.saturation == 0.0 && tp.red == 0.0 && tp.green == 0.0 && tp.blue == 0.0
  }

  /** Neutral settings leave every pixel as it is. */
  lemma NeutralIdentity(tp: Settings, pow: (real, real) -> real, c: Color32, blueWeight: real)
    requires Neutral(tp)
    ensures GradePixel(GradingOf(tp), pow, c, blueWeight) == c
  {
    var g := GradingOf(tp);
    assert GradeRgb(g, pow, c, blueWeight) == Rgb(c.r as real, c.g as real, c.b as real);
  }

  /** Brightness alone adds Brightness * 255 to each channel, clamped and truncated. */
  lemma BrightnessOnly(tp: Settings, pow: (real, real) -> real, c: Color32, blueWeight: real)
    requires tp.contrast == 0.0 && tp.gamma == 1.0
    requires tp.saturation == 0.0 && tp.red == 0.0 && tp.green == 0.0 && tp.blue == 0.0
    ensures var d := GradePixel(GradingOf(tp), pow, c, blueWeight);
            && d.r == ClampToByte(c.r as real + tp.brightness * 255.0)
            && d.g == ClampToByte(c.g as real + tp.brightness * 255.0)
            && d.b == ClampToByte(c.b as real + tp.brightness * 255.0)
  {
    var g := GradingOf(tp);
    var b := tp.brightness * 255.0;
    assert GradeRgb(g, pow, c, blueWeight) == Rgb(c.r as real + b, c.g as real + b, c.b as real + b);
  }

  /** Contrast alone leaves a channel at 128 where it is. */
  lemma ContrastFixesMidGrey(tp: Settings, pow: (real, real) -> real, a: byte, blueWeight: real)
    requires tp.contrast * 255.0 != 259.0 && tp.brightness == 0.0 && tp.gamma == 1.0
    requires tp.saturation == 0.0 && tp.red == 0.0 && tp.green == 0.0 && tp.blue == 0.0
    ensures GradePixel(GradingOf(tp), pow, Color32(128, 128, 128, a), blueWeight) == Color32(128, 128, 128, a)
  {
    var g := GradingOf(tp);
    assert GradeRgb(g, pow, Color32(128, 128, 128, a), blueWeight) == Rgb(128.0, 128.0, 128.0);
  }

  /** Saturation -1 with no balance gives a grey pixel: all three channels are the clamped grey value. */
  lemma FullDesaturationIsGrey(g: Grading, pow: (real, real) -> real, c: Color32, blueWeight: real)
    requires g.saturation == -1.0 && g.red == 0.0 && g.green == 0.0 && g.blue == 0.0
    ensures var d := GradePixel(g, pow, c, blueWeight);
            var p0 := Rgb(c.r as real, c.g as real, c.b as real);
            var p3 := Gamma(Contrast(Brighten(p0, g.brightness), g.contrast, g.contrastFactor), g.gammaCorrection, pow);
            d.r == d.g == d.b == ClampToByte(Grey(p3, blueWeight)) && d.a == c.a
  {
    var p0 := Rgb(c.r as real, c.g as real, c.b as real);
    var p3 := Gamma(Contrast(Brighten(p0, g.brightness), g.contrast, g.contrastFactor), g.gammaCorrection, pow);
    var gray := Grey(p3, blueWeight);
    assert GradeRgb(g, pow, c, blueWeight) == Rgb(gray, gray, gray);
  }

  /** With the intended grey weight, desaturating a pixel that is already grey leaves it unchanged. */
  lemma DesaturateGreyUnchanged(tp: Settings, pow: (real, real) -> real, v: byte, a: byte)
    requires tp.saturation == -1.0 && tp.brightness == 0.0 && tp.contrast == 0.0 && tp.gamma == 1.0
    requires tp.red == 0.0 && tp.green == 0.0 && tp.blue == 0.0
    ensures GradePixel(GradingOf(tp), pow, Color32(v, v, v, a), BlueIntended) == Color32(v, v, v, a)
  {
    var g := GradingOf(tp);
    var p := Rgb(v as real, v as real, v as real);
    assert Luma(p) == v as real;
    assert GradeRgb(g, pow, Color32(v, v, v, a), BlueIntended) == p;
  }

  /** With the grey weight as written, Generate's desaturation turns grey 128 into 131. */
  lemma DesaturateGreyAsWritten(tp: Settings, pow: (real, real) -> real, a: byte)
    requires tp.saturation == -1.0 && tp.brightness == 0.0 && tp.contrast == 0.0 && tp.gamma == 1.0
    requires tp.red == 0.0 && tp.green == 0.0 && tp.blue == 0.0
    ensures GradePixel(GradingOf(tp), pow, Color32(128, 128, 128, a), BlueAsWritten) == Color32(131, 131, 131, a)
  {
    var g := GradingOf(tp);
    var p := Rgb(128.0, 128.0, 128.0);
    LumaAsWrittenBrightensGrey();
    var q := Remap(-1.0, -1.0, 0.0, LumaAsWritten(p), 128.0);
    assert GradeRgb(g, pow, Color32(128, 128, 128, a), BlueAsWritten) == Rgb(q, q, q);
  }

  /**
   * Red at -1 with green and blue at 0 sends the red channel to 1.0, so
   * the byte 1, and pulls green and blue all the way to the grey value.
   */
  lemma RedRemoved(g: Grading, pow: (real, real) -> real, c: Color32)
    requires g.red == -1.0 && g.green == 0.0 && g.blue == 0.0
    ensures var d := GradePixel(g, pow, c, BlueAsWritten);
            var p0 := Rgb(c.r as real, c.g as real, c.b as real);
            var p3 := Gamma(Contrast(Brighten(p0, g.brightness), g.contrast, g.contrastFactor), g.gammaCorrection, pow);
            d.r == 1 && d.g == ClampToByte(LumaAsWritten(p3)) && d.b == ClampToByte(LumaAsWritten(p3))
  {
    var p0 := Rgb(c.r as real, c.g as real, c.b as real);
    var p3 := Gamma(Contrast(Brighten(p0, g.brightness), g.contrast, g.contrastFactor), g.gammaCorrection, pow);
    var gray := LumaAsWritten(p3);
    var p4 := Saturate(p3, g.saturation, gray);
    assert GradeRgb(g, pow, c, BlueAsWritten) == Rgb(1.0, gray, gray);
  }

  // ---------------------------------------------------------------------
  // The static Generate

  /** The pixels Generate starts from: the resampled source when the size differs, else the source's own. */
  function Resized(tp: Settings): (s: seq<Color32>)
    requires tp.source.Some? && tp.source.value.Valid()
    ensures |s| == GetResultSize(tp).x * GetResultSize(tp).y
  {
    var src, size := tp.source.value, GetResultSize(tp);
    if size.x != src.width || size.y != src.height then
      Scale.Resampled(src, size.x, size.y, tp.resizeMethod == Bilinear)
    else src.pixels
  }

  /** Every pixel of s graded, with the grey weight as written. */
  function Graded(g: Grading, pow: (real, real) -> real, s: seq<Color32>): (r: seq<Color32>)
    ensures |r| == |s|
    ensures forall k :: 0 <= k < |s| ==> r[k].a == s[k].a
  {
    seq(|s|, k requires 0 <= k < |s| => GradePixel(g, pow, s[k], BlueAsWritten))
  }

  /** With neutral settings and no resize, Generate reproduces the source. */
  lemma NeutralGenerateIsCopy(tp: Settings, pow: (real, real) -> real)
    requires tp.source.Some? && tp.source.value.Valid() && Neutral(tp)
    requires tp.width <= 0 || tp.width == tp.source.value.width
    requires tp.height <= 0 || tp.height == tp.source.value.height
    ensures Graded(GradingOf(tp), pow, Resized(tp)) == tp.source.value.pixels
  {
    var s := Resized(tp);
    assert s == tp.source.value.pixels;
    forall k | 0 <= k < |s|
      ensures Graded(GradingOf(tp), pow, s)[k] == s[k]
    {
      NeutralIdentity(tp, pow, s[k], BlueAsWritten);
    }
  }

  /**
   * The first half of the static Generate: the source resampled by the
   * chosen method when the result size differs from it, otherwise a copy
   * of its pixels (GetPixels32).
   */
  method ResizedPixels(tp: Settings, processorCount: int) returns (pixels: array<Color32>)
    requires tp.source.Some? && tp.source.value.Valid()
    requires processorCount >= 1
    ensures fresh(pixels)
    ensures pixels[..] == Resized(tp)
  {
    var src := tp.source.value;
    var size := GetResultSize(tp);
    if size.x != src.width || size.y != src.height {
      if tp.resizeMethod == ResizeMethodType.Point {
        pixels := Scale.Point(src, size, processorCount);
      } else {
        pixels := Scale.Bilinear(src, size, processorCount);
      }
    } else {
      pixels := new Color32[|src.pixels|](k requires 0 <= k < |src.pixels| => src.pixels[k]);
    }
  }

  /**
   * The static Generate(tp, result): the pixels it hands to
   * result.SetPixels32. The source must be set (the code dereferences it).
   */
  method Generate(tp: Settings, pow: (real, real) -> real, processorCount: int) returns (pixels: array<Color32>)
    requires tp.source.Some? && tp.source.value.Valid()
    requires tp.gamma != 0.0 && tp.contrast * 255.0 != 259.0
    requires processorCount >= 1
    ensures fresh(pixels)
    ensures pixels[..] == Graded(GradingOf(tp), pow, Resized(tp))
  {
    pixels := ResizedPixels(tp, processorCount);
    ghost var before := pixels[..];
    var g := GradingOf(tp);

    var i := 0;
    while i < pixels.Length
      invariant 0 <= i <= pixels.Length == |before|
      invariant forall k :: 0 <= k < i ==> pixels[k] == GradePixel(g, pow, before[k], BlueAsWritten)
      invariant forall k :: i <= k < pixels.Length ==> pixels[k] == before[k]
    {
      pixels[i] := GradePixel(g, pow, pixels[i], BlueAsWritten);
      i := i + 1;
    }
    assert pixels[..] == Graded(g, pow, before);
  }
}

=== FILE: texture_types.dfy ===
/**
 * The values the texture processor works on: 8-bit RGBA pixels, textures
 * as row-major pixel sequences, integer sizes, and the processor settings
 * read through the ITextureProcessor getters.
 */
module TextureTypes {
  import opened Wrappers

  /** An unsigned 8-bit channel value. */
  newtype byte = x: int | 0 <= x < 256

  /** Unity's Color32: four 8-bit channels. */
  datatype Color32 = Color32(r: byte, g: byte, b: byte, a: byte)

  /** Unity's Vector2Int as used for sizes. */
  datatype Size = Size(x: int, y: int)

  /** A readable Texture2D: its dimensions and the pixels GetPixels32 returns, row by row. */
  datatype Texture = Texture(width: int, height: int, pixels: seq<Color32>)
  {
    ghost predicate Valid()
    {
      width >= 1 && height >= 1 && |pixels| == width * height
    }
  }

  datatype ResizeMethodType = Point | Bilinear

  /**
   * The settings a texture processor exposes (ITextureProcessor). The
   * source texture reference may be null (None). The float settings are
   * modelled as reals.
   */
  datatype Settings = Settings(
    source: Option<Texture>,
    brightness: real,
    contrast: real,
    gamma: real,
    saturation: real,
    red: real,
    green: real,
    blue: real,
    width: int,
    height: int,
    resizeMethod: ResizeMethodType)

  /** Unity's Color: four float channels, nominally in [0, 1], modelled as reals. */
  datatype Color = Color(r: real, g: real, b: real, a: real)

  /** The implicit Color32-to-Color conversion: each channel divided by 255. */
  function ToColor(c: Color32): (k: Color)
    ensures 0.0 <= k.r <= 1.0 && 0.0 <= k.g <= 1.0 && 0.0 <= k.b <= 1.0 && 0.0 <= k.a <= 1.0
  {
    Color(c.r as real / 255.0, c.g as real / 255.0, c.b as real / 255.0, c.a as real / 255.0)
  }

  /** Mathf.Round: to the nearest integer, halves to the even neighbour. */
  function RoundHalfEven(v: real): (n: int)
    ensures v - 0.5 <= n as real <= v + 0.5
    ensures v.Floor <= n <= v.Floor + 1
    ensures n == v.Floor + 1 ==> v.Floor as real < v
  {
    var f := v.Floor;
    var frac := v - f as real;
    if frac < 0.5 then f
    else if frac > 0.5 then f + 1
    else if f % 2 == 0 then f
    else f + 1
  }

  /** Rounding never leaves an integer interval that holds the rounded value. */
  lemma RoundWithin(v: real, lo: int, hi: int)
    requires lo as real <= v <= hi as real
    ensures lo <= RoundHalfEven(v) <= hi
  {
    var n := RoundHalfEven(v);
    assert lo <= v.Floor;
    if n == v.Floor + 1 {
      assert (n - 1) as real < hi as real;
    }
  }

  /** Mathf.Clamp01. */
  function Clamp01(v: real): (c: real)
    ensures 0.0 <= c <= 1.0
    ensures 0.0 <= v <= 1.0 ==> c == v
  {
    if v < 0.0 then 0.0 else if v > 1.0 then 1.0 else v
  }

  /** One channel of the implicit Color-to-Color32 conversion: Round(Clamp01(v) * 255). */
  function ToChannel(v: real): (b: byte)
    ensures 0.0 <= v <= 1.0 ==> v * 255.0 - 0.5 <= b as real <= v * 255.0 + 0.5
  {
    var c := Clamp01(v);
    RoundWithin(c * 255.0, 0, 255);
    RoundHalfEven(c * 255.0) as byte
  }

  /** A channel whose scaled value lies between two bytes converts to a byte between them. */
  lemma ToChannelWithin(v: real, lo: byte, hi: byte)
    requires lo as real <= v * 255.0 <= hi as real
    ensures lo <= ToChannel(v) <= hi
  {
    assert 0.0 <= v <= 1.0;
    RoundWithin(Clamp01(v) * 255.0, lo as int, hi as int);
  }

  /** The implicit Color-to-Color32 conversion. */
  function ToColor32(c: Color): Color32
  {
    Color32(ToChannel(c.r), ToChannel(c.g), ToChannel(c.b), ToChannel(c.a))
  }

  /** Converting an 8-bit colour to Color and back gives the colour itself. */
  lemma ColorRoundTrip(c: Color32)
    ensures ToColor32(ToColor(c)) == c
  {
    var k := ToColor(c);
    ToChannelWithin(k.r, c.r, c.r);
    ToChannelWithin(k.g, c.g, c.g);
    ToChannelWithin(k.b, c.b, c.b);
    ToChannelWithin(k.a, c.a, c.a);
  }
}

=== FILE: wrappers.dfy ===
/** Optional values, used where the source holds a nullable reference. */
module Wrappers {

  datatype Option<+T> = None | Some(value: T)
}
